=== FILE: README.md ===
# Workflow catalog and client argument validation, modelled in Dafny

This project models three parts of a VM fleet manager's client/daemon control plane:

- **The workflow catalog** (`DefaultVMWorkflowProvider`). It is a cached set of VM provisioning templates ("workflows") downloaded as one archive and refreshed on a time-to-live. The model covers:
  - the refresh policy and its failure policy: download and zip failures are logged, anything else propagates;
  - the bulk listing `all_workflows`, which skips and logs invalid entries;
  - the targeted lookups `info_for`, `fetch_workflow_for`, `name_from_workflow` and `workflow_timeout`;
  - architecture filtering through `runs-on`;
  - the merge of a workflow's resource minimums into a VM description.

  The catalog's implementation is not part of this model. Where the assertions of `tests/test_workflow_provider.cpp` pin a behaviour down, the model follows them: download counts, logged lines, raised errors, listed summaries and merged resources. Three state rules are this model's own choices, because no test shows them:
  - a caller's cloud-init is kept;
  - only a successful fetch replaces the entries and advances the refresh time;
  - after a failed download or unpacking, the old entries stay and the refresh stays due.

  These choices are listed under "Left out".
- **`mount` argument validation** (`src/client/cli/cmd/mount.cpp`):
  - the source directory checks;
  - `<name>[:<path>]` targets;
  - `<host>:<instance>` uid/gid maps and their unsigned 32-bit conversion;
  - the default mapping.
- **`stop` argument validation** (`src/client/cli/cmd/stop.cpp`):
  - the name/`--all` conflict;
  - `--time` combined with `--cancel`;
  - stripping of one leading `+`;
  - the digit check and the request fields.

Files:

- `results.dfy`: `Option` and `Result`.
- `arg_parse.dfy`: the parser's `ParseCode`.
- `decimal.dfy`: numerals and their values.
- `mount_command.dfy`, `stop_command.dfy`: the two commands.
- `provisioning.dfy`: the resource merge.
- `workflow_catalog.dfy`: catalog state, refresh and lookups.
- `catalog_properties.dfy`: properties that span several calls, and the test workflows as concrete scenarios.

Everything is a pure function over immutable datatypes. The filesystem, the clock, the downloader and unseen helpers become inputs:

- **Mount**: a `SourceDir` record describes the source, and `HostIds` holds the client's uid, gid and default instance id.
- **Stop**: `StopEnv` carries the name-conflict verdict, the instance names, the primary name, and the digit check's answer on the empty string.
- **Catalog**: each operation takes `now` and the `RefreshOutcome` a refresh would have. It returns a `Step`: the new catalog, the number of downloads, the logged lines and the reply.

Where the tests pin the catalog's behaviour down, the model follows them. This leads to three modelling choices:

- **Checks in the bulk listing.** The listing checks only the fields a summary needs (description, version, runs-on, name). The test at lines 272-305 expects log lines for exactly those errors, and no lines for workflows with a bad image, minimum, cloud-init or timeout. So each `Entry` holds three separately parsed aspects: `info`, `launch` and `timeout`.
- **Incompatible workflows.** The listing skips them without logging, because the test expects no line for `arch-only`.
- **`workflow_timeout`.** It raises on an invalid timeout, as lines 470-476 require. It answers 0 only for an unknown or unset timeout.

## Model

| member | source | states |
|---|---|---|
| MountCommand.ParseMount | src/client/cli/cmd/mount.cpp:126-258 | Uses the corrected ParseTarget of "Findings", so it refuses a target with no non-empty part, which the source reads out of range. A non-Ok generic parse status is returned first. Fewer than two positionals gives NotEnoughArguments. The source checks run in order: existence, then directory, then readability. Then a rejected target's error is returned, then a rejected map's. On success the source path is the absolute path and there is one target per positional after the first, in order. If neither map option is given, exactly one default uid pair and one default gid pair are added; otherwise exactly the given maps are added, in order. Once the source and targets are accepted, parsing succeeds iff every map does. |
| MountCommand.Code | src/client/cli/cmd/mount.cpp:128-239 | The code returned for an error: the parser's own status for a generic parse failure, and CommandLineError for every check of the command's own. |
| MountCommand.SplitSkipEmpty | src/client/cli/cmd/mount.cpp:163 | Splitting on ':' with empty parts skipped gives non-empty, colon-free parts that together are the argument minus its colons. |
| MountCommand.SplitOfColonFree | src/client/cli/cmd/mount.cpp:163 | A string without ':' splits to nothing when empty, and to itself otherwise. |
| MountCommand.SplitAtColon | src/client/cli/cmd/mount.cpp:163 | Every ':' is a break: the parts of `a:b` are the parts of `a` followed by the parts of `b`. With the lemma above, this fixes the split of every string. |
| MountCommand.TargetRoundTrip | src/client/cli/cmd/mount.cpp:161-176 | `name` reads back as (name, absolute source path), and `name:path` reads back as (name, path). |
| MountCommand.TargetExtraPartsIgnored | src/client/cli/cmd/mount.cpp:163-175 | For `name:path:rest`, the target is (name, path) whatever `rest` is: parts after the second are dropped. |
| MountCommand.EmptyPartsSkipped | src/client/cli/cmd/mount.cpp:163-170 | For `:name:`, the target is (name, absolute source path), because empty parts are skipped. |
| MountCommand.ParseTargets | src/client/cli/cmd/mount.cpp:161-176 | Each target argument yields exactly one entry, in order. It fails only on an argument with no non-empty part. The error is that of the first such argument, with all earlier ones accepted. |
| MountCommand.TargetAsWritten | src/client/cli/cmd/mount.cpp:163-175 | As written, the instance name is the first part of the split. The path is the source when there is one part, otherwise the second part. It is defined only when a first part exists. |
| MountCommand.ParseTarget | src/client/cli/cmd/mount.cpp:163-175 | Corrected target parsing. It fails with EmptyTarget exactly when the argument has no character other than ':'. Otherwise it agrees with the as-written target. |
| MountCommand.ColonOnlyTargetHasNoParts | src/client/cli/cmd/mount.cpp:163-166 | The target ":" splits into no parts, so the as-written first-part access is out of range. |
| MountCommand.PatternColonIsFirst | src/client/cli/cmd/mount.cpp:178 | In a string that matches the map pattern, the pattern's colon is the first colon. |
| MountCommand.SplitMap | src/client/cli/cmd/mount.cpp:178-194 | The two parts are returned exactly when the string matches `^[0-9]+:[0-9]+$`. The parts are then non-empty digit strings joined by the colon. |
| MountCommand.ConvertId | src/client/cli/cmd/mount.cpp:40-49 | The conversion succeeds exactly for non-empty numerals whose value fits in an unsigned 32-bit int, and yields that value. Otherwise it fails naming the id. |
| MountCommand.ParseMap | src/client/cli/cmd/mount.cpp:186-209 | A string that breaks the pattern fails as an invalid map of its kind. A matching map succeeds iff both ids fit in 32 bits, and yields their values. The host id is converted first: if it does not fit, it is the id named. Otherwise an oversized instance id is named. |
| MountCommand.MapRoundTrip | src/client/cli/cmd/mount.cpp:178-203 | A pair with 32-bit ids, written as decimal `host:instance`, parses back to the same pair. |
| MountCommand.LeadingZeroAccepted | src/client/cli/cmd/mount.cpp:178-203 | A leading zero on the host id is accepted and names the same pair. |
| MountCommand.OversizedIdRejected | src/client/cli/cmd/mount.cpp:196-209 | A well-formed map whose host id exceeds the unsigned 32-bit range fails, naming that id. The line written is "<id> is an invalid id". |
| MountCommand.ParseMaps | src/client/cli/cmd/mount.cpp:186-242 | Each accepted map appends one pair, in order. The option fails iff some map fails. The error is that of the first failing map, with all earlier maps accepted. |
| MountCommand.Mappings | src/client/cli/cmd/mount.cpp:182-256 | With no maps given, the result is the two defaults (getuid, default id) and (getgid, default id). With either option given, the result is exactly the parsed maps and no defaults. A uid failure is reported first. A gid failure is reported when every uid map is accepted. |
| MountCommand.MalformedMapRejected | src/client/cli/cmd/mount.cpp:186-192 | A uid map that breaks the pattern makes parsing fail with CommandLineError. |
| MountCommand.GidMapsOnlyMeansNoUidMapping | src/client/cli/cmd/mount.cpp:182-256 | With only gid maps given, the request has no uid mapping at all, and one gid mapping per map. The defaults come only when neither option is set. |
| MountCommand.Diagnostic | src/client/cli/cmd/mount.cpp:132-221 | Only a generic parse failure writes no line of the command's own. |
| MountCommand.MountDiagnostics | src/client/cli/cmd/mount.cpp:130-156 | The lines written for too few arguments, a missing source, a source that is not a directory and an unreadable source, with the source path quoted. |
| MountCommand.MalformedMapDiagnostic | src/client/cli/cmd/mount.cpp:188-191 | A map that breaks the pattern is written as "Invalid UID map given: " or "Invalid GID map given: " followed by the map. |
| StopCommand.ParseStop | src/client/cli/cmd/stop.cpp:88-129 | Uses the corrected TimeMinutes of "Findings", so it refuses an overlong delay that the source accepts as 0 minutes. The generic parse status comes first. The name/--all conflict code is returned before any time or cancel check. --time together with --cancel is refused. A non-digit time, after one '+' is stripped, is refused. A digit-form time is accepted iff it fits the 32-bit range. Otherwise it is refused as out of range; this refusal is the correction. On success the minutes are the value of the stripped numeral, or 0 when it is empty. cancel_shutdown is set by --cancel and otherwise left as it was, and the instance names are the helper's. Without --time the delay is 0. |
| StopCommand.Code | src/client/cli/cmd/stop.cpp:88-116 | The code returned for an error: the parser's status, or the name/--all helper's code, passed through unchanged; CommandLineError for every check of the command's own. |
| StopCommand.TimeValue | src/client/cli/cmd/stop.cpp:83-107 | The time text is the --time value when one is given, and "0" (the option's default) otherwise. |
| StopCommand.NoTimeIsTimeZero | src/client/cli/cmd/stop.cpp:83-120 | Without --cancel, leaving out --time parses exactly as `--time 0`. |
| StopCommand.StripPlus | src/client/cli/cmd/stop.cpp:109-112 | Exactly one leading '+' is removed, and nothing else changes. |
| StopCommand.DelayRoundTrip | src/client/cli/cmd/stop.cpp:107-120 | A decimal delay within range, with or without one '+', parses to that many minutes. |
| StopCommand.SecondPlusRejected | src/client/cli/cmd/stop.cpp:109-118 | `++t` is refused as not digits, because only one '+' is stripped. |
| StopCommand.TimeMinutesAsWritten | src/client/cli/cmd/stop.cpp:120 | As written, the signed 32-bit conversion gives the numeral's value when it fits, and the conversion's failure value otherwise. |
| StopCommand.OverlongDelayBecomesImmediate | src/client/cli/cmd/stop.cpp:114-120 | As written, a delay beyond the 32-bit range converts to 0, the same as no delay. |
| StopCommand.TimeMinutes | src/client/cli/cmd/stop.cpp:114-120 | Corrected conversion. The empty time gives 0, as the signed conversion of "" does. A non-empty numeral is accepted iff it is within the 32-bit range, and yields its value. Wherever this conversion accepts, it agrees with the as-written one. |
| StopCommand.OverlongDelayRefused | src/client/cli/cmd/stop.cpp:114-120 | The corrected parsing refuses a delay the as-written code would turn into an immediate stop. |
| StopCommand.EmptyTimeFollowsDigitCheck | src/client/cli/cmd/stop.cpp:107-120 | A time of `+` or of nothing strips to the empty string. It is decided by the digit check's verdict on "" alone: accepted, it means no delay; refused, it fails as not digits. |
| StopCommand.Diagnostic | src/client/cli/cmd/stop.cpp:95-116 | A generic parse failure writes no line of the command's own. Each refusal of the command's own writes a non-empty line. |
| StopCommand.StopDiagnostics | src/client/cli/cmd/stop.cpp:92-117 | The primary-disabled note, the time/cancel conflict line and the digit-form line, each written in the case the source writes it. |
| Provisioning.MergeAmount | tests/test_workflow_provider.cpp:216-258 | An unset amount is raised to the minimum. A set amount below the minimum fails, naming the resource and the minimum as written. Any other amount is kept. |
| Provisioning.Apply | tests/test_workflow_provider.cpp:130-258 | The merge fails iff some set amount is below its minimum, and the error names such a resource and its minimum text. On success: set amounts are unchanged, unset ones take the minimum, all minimums are met, and the image query is the workflow's. The caller's cloud-init is kept; this is the model's choice (see MergeCloudInit). |
| Provisioning.ApplyIdempotent | tests/test_workflow_provider.cpp:246-258 | Applying a workflow to its own merged result changes nothing. |
| Provisioning.SufficientRequestUnchanged | tests/test_workflow_provider.cpp:246-258 | A request with every amount set and at least the minimum is returned unchanged. |
| Provisioning.ImageFor | tests/test_workflow_provider.cpp:478-487 | The query is the workflow's own image, or release "default" when it names none. |
| Provisioning.MergeCloudInit | tests/test_workflow_provider.cpp:138-160 | The workflow's cloud-init data (possibly none) is taken only when the request has none of its own. The tests show only requests without vendor data, taking the workflow's data (lines 138-145) or none (line 160). Keeping the caller's own data is the model's choice. |
| WorkflowCatalog.LogLine | tests/test_workflow_provider.cpp:272-289 | A skipped workflow is logged as "Invalid workflow: " plus its message. An invalid host name is logged with its own "Invalid workflow name ..." text. |
| WorkflowCatalog.ErrorMessage | tests/test_workflow_provider.cpp:87-213 | Each workflow error has a non-empty message. A missing-key, unconvertible-key or cloud-init message ends by naming the workflow ("<name> workflow"). |
| WorkflowCatalog.RecoverableLog | tests/test_workflow_provider.cpp:342-396 | The line logged for a download or unzip failure ends with that failure's own message, after a prefix. |
| WorkflowCatalog.StaleRule | tests/test_workflow_provider.cpp:307-340 | A refresh is due when the time-to-live is 0 or the catalog was never refreshed. Otherwise it is due exactly when the time-to-live has run out since the last refresh. |
| CatalogProperties.ConvertKeyLogText | tests/test_workflow_provider.cpp:272-289 | The log line of a workflow whose key does not convert is "Invalid workflow: Cannot convert '<key>' key for the <name> workflow". |
| CatalogProperties.MissingKeyLogText | tests/test_workflow_provider.cpp:272-289 | The log line of a workflow that lacks a key is "Invalid workflow: The '<key>' key is required for the <name> workflow". |
| CatalogProperties.ListingLogTexts | tests/test_workflow_provider.cpp:272-289 | The log lines the listing test expects for the description, version and runs-on keys that do not convert, for the missing description and version keys, and for the invalid host name. Each key line is "Invalid workflow: " followed by the message naming the key and the workflow. |
| CatalogProperties.ExceptionTexts | tests/test_workflow_provider.cpp:87-213 | The messages the lookup tests expect for invalid cloud-init, an unsupported image scheme, invalid CPU, memory and disk minimums, and (line 475) an invalid timeout. |
| CatalogProperties.RefreshLogTexts | tests/test_workflow_provider.cpp:342-396 | The lines the refresh tests expect: "Error fetching workflows: failed to download from '<url>': <message>" and "Error extracting Workflows zip file: Illegal state: <message>". |
| WorkflowCatalog.Lookup | tests/test_workflow_provider.cpp:71-85 | A name is unknown exactly when no entry carries it. A found entry is that name's entry, and the only one when names are distinct. |
| WorkflowCatalog.EnsureFresh | tests/test_workflow_provider.cpp:307-425 | A due refresh downloads once, and a fresh catalog makes no download and no change. Download and zip failures are logged with their prefixes. Any other failure is let through with its message. These parts are what the tests assert. Two further rules are the model's choice (see Left out): only a successful fetch replaces the entries and advances the refresh time, and a recoverable failure changes nothing. |
| WorkflowCatalog.Construct | tests/test_workflow_provider.cpp:342-407 | Construction always downloads once. It fails only on a failure other than download or zip, carrying its message. A download or zip failure is logged with its line and not raised, and leaves an empty, never-refreshed catalog. Nothing else is logged. |
| WorkflowCatalog.ListWorkflows | tests/test_workflow_provider.cpp:272-305 | A summary is listed iff its entry parses and is compatible. Every invalid entry's line is logged, and only such lines. The listing has one log line per invalid entry. |
| WorkflowCatalog.InfoOf | tests/test_workflow_provider.cpp:509-528 | Unknown gives out_of_range. An unparsable entry raises its own message. An incompatible entry raises its name. A found entry that parses and is compatible is answered with its summary, with the name as the only alias, and only such an entry is answered. |
| WorkflowCatalog.FetchOf | tests/test_workflow_provider.cpp:87-161 | The failures of InfoOf come first, then the workflow's own launch error. For a workflow that InfoOf answers and whose launch data parses, the result is exactly the merge's: its merged request on success, or BelowMinimum with the merge's violation. |
| WorkflowCatalog.NameOf | tests/test_workflow_provider.cpp:427-447 | A known name maps to itself, and an unknown one to the empty string. |
| WorkflowCatalog.TimeoutOf | tests/test_workflow_provider.cpp:449-476 | The workflow's timeout. 0 for an unknown name. An invalid timeout raises its own error. |
| WorkflowCatalog.AllWorkflows | tests/test_workflow_provider.cpp:272-340 | The freshness check comes first: one download iff a refresh is due. The entries are replaced only by a successful fetch; this is the model's choice, as for EnsureFresh. A failure outside the recoverable two is raised with its message and nothing logged. Otherwise the reply is the listing of the entries after the check, and the log holds the refresh line (if any) followed by the listing's lines. |
| WorkflowCatalog.InfoFor | tests/test_workflow_provider.cpp:260-270 | Same freshness rules as all_workflows. Unless a failure is raised, the reply is InfoOf on the catalog after the check, and the only log line is the refresh's own. |
| WorkflowCatalog.FetchWorkflowFor | tests/test_workflow_provider.cpp:130-161 | Same freshness rules as all_workflows. Unless a failure is raised, the reply is FetchOf on the catalog after the check, and the only log line is the refresh's own. |
| WorkflowCatalog.NameFromWorkflow | tests/test_workflow_provider.cpp:427-447 | Same freshness rules as all_workflows. Unless a failure is raised, the reply is NameOf on the catalog after the check, and the only log line is the refresh's own. |
| WorkflowCatalog.WorkflowTimeout | tests/test_workflow_provider.cpp:449-476 | Same freshness rules as all_workflows. Unless a failure is raised, the reply is TimeoutOf on the catalog after the check, and the only log line is the refresh's own. |
| CatalogProperties.Session | tests/test_workflow_provider.cpp:307-340 | A series of operations downloads at most once per operation. Ttl and architecture never change. A let-through failure is one of the series' own other-failure outcomes. |
| CatalogProperties.ZeroTtlDownloadsEveryCall | tests/test_workflow_provider.cpp:324-340 | With a zero time-to-live, every operation downloads, and recoverable failures never stop the series. |
| CatalogProperties.NoDownloadWithinTtl | tests/test_workflow_provider.cpp:307-322 | Before the time-to-live of the last refresh runs out, no operation downloads or changes the catalog. |
| CatalogProperties.RecoverableFailureRetried | tests/test_workflow_provider.cpp:358-380 | A failed download or unpack leaves the catalog as it was and still due, so the next call retries. This follows from the model's choice for EnsureFresh. The test at these lines asserts only the logged line and that nothing is raised. |
| CatalogProperties.PositiveTtlDownloadsOnce | tests/test_workflow_provider.cpp:307-322 | Construction plus one listing within the time-to-live make exactly one download, and the listing comes from the fetched entries. |
| CatalogProperties.ZeroTtlDownloadsTwice | tests/test_workflow_provider.cpp:324-340 | With a zero time-to-live, construction plus one listing make two downloads. |
| CatalogProperties.DownloadFailureDuringUpdateNotRaised | tests/test_workflow_provider.cpp:358-380 | A download failure on a later call is logged with the fetch prefix and is not raised, as the test asserts. That the old entries are still listed is the model's choice for EnsureFresh. |
| CatalogProperties.OtherFailureDuringCallRaised | tests/test_workflow_provider.cpp:409-425 | Another failure during a due refresh reaches the caller of info_for, all_workflows or workflow_timeout with its message unchanged. |
| CatalogProperties.BulkAgreesWithTargeted | tests/test_workflow_provider.cpp:260-305 | With distinct names, info_for answers a name iff the bulk listing shows it, with the same summary. |
| CatalogProperties.InvalidEntrySkippedThenRaised | tests/test_workflow_provider.cpp:163-201 | An unparsable entry is absent from the listing, its line is logged, and a targeted lookup raises its own message. |
| CatalogProperties.ArchitectureFilter | tests/test_workflow_provider.cpp:509-543 | A runs-on-restricted workflow is listed and answered iff the catalog's architecture is among its tags. Otherwise info_for raises the workflow's name. |
| CatalogProperties.ListedSplit | tests/test_workflow_provider.cpp:530-543 | The listing's size is the number of unrestricted valid workflows plus the number restricted to an architecture list containing the tag. The number of log lines is the number of invalid entries. |
| CatalogProperties.FirstWorkflowScenarios | tests/test_workflow_provider.cpp:130-258 | For a workflow with minimums (2, 2G, 25G), an all-zero request ends at exactly those values with release "default". Cores 1, memory 1G or disk 20G fail, naming "Number of CPUs", "Memory size" or "Disk space" with "2", "2G" or "25G". A request of (4, 4G, 50G) is unchanged. The name and the timeout 600 are answered. |
| CatalogProperties.SecondWorkflowScenarios | tests/test_workflow_provider.cpp:147-161 | A workflow with image bionic/daily yields that query and its minimums, with no vendor data. Its summary and timeout 0 are answered. |
| CatalogProperties.UnknownNameAnswers | tests/test_workflow_provider.cpp:71-85 | For an unknown name, info_for and fetch_workflow_for fail with out_of_range, name_from_workflow is empty, and workflow_timeout is 0. |

## Left out

- `src/sshfs_mount/sshfs_mount.cpp` and `tests/mock_ssh_client.h`: remote shell commands, the sftp server thread and mock declarations. This is I/O and concurrency with no self-contained logic.
- `Mount::run` and `Stop::run`: RPC dispatch and spinner output.
- Option registration and help texts of both commands.
- The filesystem checks and `QDir::absolutePath`: given as the `SourceDir` booleans and an opaque absolute path.
- `getuid`, `getgid` and the default instance id: given as inputs, because their values come from headers that are not part of this model.
- How `isSet` relates to the option's values: modelled as "the option has at least one value".
- Unsigned conversion of strings other than plain numerals (signs, whitespace): not modelled. The map pattern only lets numerals reach the conversion.
- The width of the request's id fields: not part of this model.
- The settings lookup of the primary instance name, `check_for_name_and_all_option_conflict` and `add_instance_names`: given as inputs in `StopEnv`.
- The digit check's verdict on the empty string: an input, `StopEnv.emptyIsDigits`. When it accepts "", the delay is 0, as the conversion of "" gives.
- Parsing a workflow's YAML document, the host-name rule, size strings such as "2G", and cloud-init contents. Entries arrive already classified per aspect. A size minimum carries its byte count and its text. Cloud-init is an opaque string.
- Downloading and unzipping the archive, and the cache file's name and location (tests 60-69): a refresh attempt is given its outcome.
- The clock: each operation receives `now`, and the time-to-live is a natural number of the same unit.
- Concurrency: the catalog is a value, and operations are sequential.
- Logging other than the asserted error lines. Bulk-listing lines are modelled as logged by the listing call. The tests do not show whether the real code logs them during the refresh instead.
- Provisioning.Apply: does not say which resource is reported when several are short, because the order of the resource checks is not pinned down. It returns no request on failure, so whether the caller's request is left untouched after a violation is not modelled.
- WorkflowCatalog.InfoOf: for an entry that is both unparsable and incompatible, the model reports the parse error. No test shows which of the two comes first.
- WorkflowCatalog.ListWorkflows: logs such an entry's parse error rather than skipping it silently as incompatible. No test shows which of the two comes first.
- WorkflowCatalog.FetchOf: the order of its checks (listing fields, compatibility, launch fields, minimums) is the model's own. The tests only exercise one failure at a time.
- WorkflowCatalog.NameOf: treats any entry of the catalog as known, whatever its validity or compatibility. The tests use only valid, compatible workflows.
- WorkflowCatalog.TimeoutOf: does not check the entry's listing fields or compatibility. The tests do not show whether it does.
- Provisioning.MergeCloudInit: keeps a caller's own cloud-init and takes the workflow's only when the request has none. This is the model's choice: the tests pass only requests without vendor data.
- WorkflowCatalog.EnsureFresh: only a successful fetch replaces the entries and advances the refresh time, and a download or zip failure keeps the old entries and leaves the refresh due. These are the model's choices. The tests at lines 307-425 assert only download counts, logged lines and raised errors.
- StopCommand.ParseStop: differs from the source on `--time 2147483648` and larger numerals, which it refuses as out of range. The source converts them to 0 and stops at once. See "Findings".
- MountCommand.ParseMount: differs from the source on a target argument of ":" or "", which it refuses as EmptyTarget. The source reads the first part of an empty split. See "Findings".
- Diagnostic texts for `EmptyTarget` and `TimeOutOfRange`: the source has no such refusal, so these lines ("Invalid target given: ", "Time is too large: ") are this model's wording for the corrected checks.
- The minimum-violation message text: only its two asserted parts are modelled, as fields: the resource label ("Number of CPUs", "Memory size", "Disk space") and the minimum text.

## Findings

| source | as written | input that shows it | evidently intended | confidence | as-written member | corrected member |
|---|---|---|---|---|---|---|
| src/client/cli/cmd/mount.cpp:163-166 | The target is split on ':' with empty parts skipped, and the first part is read without checking that there is one (`ColonOnlyTargetHasNoParts` shows ":" has none). | target argument ":" (or "") | reject the target with CommandLineError | medium, not executed | MountCommand.TargetAsWritten | MountCommand.ParseTarget |
| src/client/cli/cmd/stop.cpp:114-120 | A numeral that passes the digit check is converted with a signed 32-bit conversion. Its failure value, 0, becomes the delay (`OverlongDelayBecomesImmediate`). | `--time 2147483648` (the empty time, which the conversion also fails on, yields 0 too and is kept as no delay) | refuse a delay that cannot be represented, instead of stopping at once | medium, not executed | StopCommand.TimeMinutesAsWritten | StopCommand.TimeMinutes |

=== FILE: arg_parse.dfy ===
/** The outcome codes of the command-line parser every client command shares. */
module ArgParse {

  /** The parse codes a command's argument parsing can produce. */
  datatype ParseCode = Ok | CommandLineError | HelpRequested
}

=== FILE: catalog_properties.dfy ===
/**
 * Properties of the workflow catalog that span several calls or relate two
 * operations: the refresh policy over a series of calls, the agreement of the
 * bulk listing with the targeted lookup, architecture filtering, and the
 * concrete workflows the catalog's behaviour is pinned down with.
 */
module CatalogProperties {
  import opened Results
  import opened Provisioning
  import opened WorkflowCatalog

  // ---------------------------------------------------------------------------
  // Refresh policy over a series of calls
  // ---------------------------------------------------------------------------

  /** One catalog operation as the refresh policy sees it: when it is made, and how a refresh would end. */
  datatype Call = Call(now: nat, outcome: RefreshOutcome)

  datatype SessionEnd = SessionEnd(catalog: Catalog, downloads: nat, fatal: Option<string>)

  /** The freshness checks of a series of operations, up to the first failure let through. */
  function Session(c: Catalog, calls: seq<Call>): (r: SessionEnd)
    ensures r.downloads <= |calls|
    ensures r.catalog.ttl == c.ttl && r.catalog.arch == c.arch
    ensures r.fatal.Some? ==> exists i :: 0 <= i < |calls| && calls[i].outcome == OtherFailure(r.fatal.value)
    decreases |calls|
  {
    if |calls| == 0 then SessionEnd(c, 0, None)
    else
      var f := EnsureFresh(c, calls[0].now, calls[0].outcome);
      if f.fatal.Some? then SessionEnd(f.catalog, f.downloads, f.fatal)
      else
        var rest := Session(f.catalog, calls[1..]);
        assert forall i :: 0 <= i < |calls| - 1 ==> calls[1..][i] == calls[i + 1];
        SessionEnd(rest.catalog, f.downloads + rest.downloads, rest.fatal)
  }

  /** With a zero time-to-live every operation downloads, and recoverable failures never stop the series. */
  lemma {:induction false} ZeroTtlDownloadsEveryCall(c: Catalog, calls: seq<Call>)
    requires c.ttl == 0
    requires forall i :: 0 <= i < |calls| ==> !calls[i].outcome.OtherFailure?
    ensures Session(c, calls).downloads == |calls|
    ensures Session(c, calls).fatal.None?
    decreases |calls|
  {
    if |calls| > 0 {
      var f := EnsureFresh(c, calls[0].now, calls[0].outcome);
      assert forall i :: 0 <= i < |calls| - 1 ==> calls[1..][i] == calls[i + 1];
      ZeroTtlDownloadsEveryCall(f.catalog, calls[1..]);
    }
  }

  /** Before the time-to-live of the last refresh runs out, no operation downloads or changes the catalog. */
  lemma {:induction false} NoDownloadWithinTtl(c: Catalog, calls: seq<Call>)
    requires c.ttl > 0 && c.lastRefresh.Some?
    requires forall i :: 0 <= i < |calls| ==> calls[i].now < c.lastRefresh.value + c.ttl
    ensures Session(c, calls) == SessionEnd(c, 0, None)
  {
    if |calls| > 0 {
      assert !Stale(c, calls[0].now);
      assert forall i :: 0 <= i < |calls| - 1 ==> calls[1..][i] == calls[i + 1];
      NoDownloadWithinTtl(c, calls[1..]);
    }
  }

  /** A failed download or unpacking leaves the refresh due, so the next operation tries again. */
  lemma RecoverableFailureRetried(c: Catalog, now: nat, outcome: RefreshOutcome, later: nat)
    requires Stale(c, now) && (outcome.DownloadFailed? || outcome.ZipFailed?)
    requires later >= now
    ensures EnsureFresh(c, now, outcome).catalog == c
    ensures Stale(EnsureFresh(c, now, outcome).catalog, later)
  {
  }

  /** A positive time-to-live: construction and one operation before it runs out download exactly once. */
  lemma PositiveTtlDownloadsOnce(ttl: nat, arch: string, t0: nat, entries: seq<NamedEntry>, t1: nat, next: RefreshOutcome)
    requires ttl > 0 && t1 < t0 + ttl
    ensures var built := Construct(ttl, arch, t0, Fetched(entries));
      var call := AllWorkflows(built.catalog, t1, next);
      && built.downloads + call.downloads == 1
      && call.reply == Success(ListWorkflows(entries, arch).infos)
  {
  }

  /** A zero time-to-live: construction and one operation download twice. */
  lemma ZeroTtlDownloadsTwice(arch: string, t0: nat, first: RefreshOutcome, t1: nat, next: RefreshOutcome)
    ensures var built := Construct(0, arch, t0, first);
      built.downloads + AllWorkflows(built.catalog, t1, next).downloads == 2
  {
  }

  /** A download failure during a later refresh is logged and the listing is still answered from the old entries. */
  lemma DownloadFailureDuringUpdateNotRaised(ttl: nat, arch: string, t0: nat, entries: seq<NamedEntry>,
                                             t1: nat, url: string, message: string)
    requires ttl == 0
    ensures var built := Construct(ttl, arch, t0, Fetched(entries));
      var call := AllWorkflows(built.catalog, t1, DownloadFailed(url, message));
      && call.reply == Success(ListWorkflows(entries, arch).infos)
      && call.logs[0] == "Error fetching workflows: failed to download from '" + url + "': " + message
  {
  }

  /** Any other failure during a later refresh reaches the caller with its message unchanged. */
  lemma OtherFailureDuringCallRaised(c: Catalog, name: string, now: nat, message: string)
    requires Stale(c, now)
    ensures InfoFor(c, name, now, OtherFailure(message)).reply == Failure(Propagated(message))
    ensures AllWorkflows(c, now, OtherFailure(message)).reply == Failure(Propagated(message))
    ensures WorkflowTimeout(c, name, now, OtherFailure(message)).reply == Failure(Propagated(message))
  {
  }

  // ---------------------------------------------------------------------------
  // Bulk listing versus targeted lookup
  // ---------------------------------------------------------------------------

  /** A workflow is answered by a targeted lookup exactly when the bulk listing shows it, with the same summary. */
  lemma BulkAgreesWithTargeted(c: Catalog, name: string)
    requires DistinctNames(c.entries)
    ensures InfoOf(c, name).Success? <==>
      exists x :: x in ListWorkflows(c.entries, c.arch).infos && x.aliases == [name]
    ensures InfoOf(c, name).Success? ==> InfoOf(c, name).value in ListWorkflows(c.entries, c.arch).infos
  {
    var listing := ListWorkflows(c.entries, c.arch);
    if InfoOf(c, name).Success? {
      var i :| 0 <= i < |c.entries| && c.entries[i] == NamedEntry(name, Lookup(c.entries, name).value);
      assert Summary(c.entries[i]) in listing.infos;
    }
    if exists x :: x in listing.infos && x.aliases == [name] {
      var x :| x in listing.infos && x.aliases == [name];
      var i :| 0 <= i < |c.entries| && Listed(c.entries[i], c.arch) && x == Summary(c.entries[i]);
      assert [c.entries[i].name] == [name];
      assert Lookup(c.entries, name) == Some(c.entries[i].entry);
    }
  }

  /** An entry that does not parse is skipped with a logged line by the listing, and raises its own error when asked for. */
  lemma InvalidEntrySkippedThenRaised(c: Catalog, i: nat)
    requires DistinctNames(c.entries) && i < |c.entries|
    requires c.entries[i].entry.info.Failure?
    ensures var e := c.entries[i]; var listing := ListWorkflows(c.entries, c.arch);
      && LogLine(e.name, e.entry.info.error) in listing.logs
      && (forall x :: x in listing.infos ==> x.aliases != [e.name])
      && InfoOf(c, e.name) == Failure(InvalidWorkflow(ErrorMessage(e.name, e.entry.info.error)))
  {
    var e := c.entries[i];
    BulkAgreesWithTargeted(c, e.name);
  }

  /** A workflow restricted by runs-on is listed and answered only on an architecture it names. */
  lemma ArchitectureFilter(c: Catalog, i: nat)
    requires DistinctNames(c.entries) && i < |c.entries|
    requires c.entries[i].entry.info.Success? && |c.entries[i].entry.info.value.runsOn| > 0
    ensures var e := c.entries[i];
      c.arch in e.entry.info.value.runsOn ==>
        InfoOf(c, e.name) == Success(Summary(e)) && Summary(e) in ListWorkflows(c.entries, c.arch).infos
    ensures var e := c.entries[i];
      c.arch !in e.entry.info.value.runsOn ==>
        && InfoOf(c, e.name) == Failure(IncompatibleWorkflow(e.name))
        && forall x :: x in ListWorkflows(c.entries, c.arch).infos ==> x.aliases != [e.name]
  {
    BulkAgreesWithTargeted(c, c.entries[i].name);
  }

  function UnrestrictedCount(entries: seq<NamedEntry>): nat {
    if |entries| == 0 then 0
    else
      var e := entries[0];
      (if e.entry.info.Success? && |e.entry.info.value.runsOn| == 0 then 1 else 0) + UnrestrictedCount(entries[1..])
  }

  function RestrictedCount(entries: seq<NamedEntry>, arch: string): nat {
    if |entries| == 0 then 0
    else
      var e := entries[0];
      (if e.entry.info.Success? && arch in e.entry.info.value.runsOn then 1 else 0) + RestrictedCount(entries[1..], arch)
  }

  /** The listing's size: the unrestricted workflows plus those restricted to an architecture that includes this one. */
  lemma {:induction false} ListedSplit(entries: seq<NamedEntry>, arch: string)
    ensures |ListWorkflows(entries, arch).infos| == UnrestrictedCount(entries) + RestrictedCount(entries, arch)
    ensures |ListWorkflows(entries, arch).logs| == InvalidCount(entries)
  {
    if |entries| > 0 {
      ListedSplit(entries[1..], arch);
    }
  }

  // ---------------------------------------------------------------------------
  // Concrete workflows
  // ---------------------------------------------------------------------------

  /** One gibibyte, the unit of a "G" size. */
  const Gi: nat := 1073741824

  const FirstCloudInit := CloudInit("runcmd:\n  - echo \"Have fun!\"\n")

  /** A workflow with minimums 2 cores, 2G memory and 25G disk, no image, cloud-init data and a 600-second timeout. */
  function FirstWorkflow(): Entry {
    Entry(
      Success(WorkflowInfo("The first test workflow", "0.1", {})),
      Success(LaunchSpec(None, Some(Minimum(2, "2")), Some(Minimum(2 * Gi, "2G")), Some(Minimum(25 * Gi, "25G")),
                         Some(FirstCloudInit))),
      Success(600))
  }

  /** A workflow with image bionic from the daily remote, minimums 4, 4G and 50G, no cloud-init and no timeout. */
  function SecondWorkflow(): Entry {
    Entry(
      Success(WorkflowInfo("Another test workflow", "0.1", {})),
      Success(LaunchSpec(Some(ImageQuery("bionic", "daily")), Some(Minimum(4, "4")), Some(Minimum(4 * Gi, "4G")),
                         Some(Minimum(50 * Gi, "50G")), None)),
      Success(0))
  }

  const Unset := VmDescription(0, 0, 0, None)

  /**
   * The log line of a workflow whose key does not convert: "Invalid workflow: "
   * followed by the message naming the key and the workflow.
   */
  lemma ConvertKeyLogText(name: string, k: InfoKey)
    ensures LogLine(name, CannotConvertKey(k)) ==
      "Invalid workflow: " + "Cannot convert '" + KeyName(k) + "' key for the " + name + " workflow"
  {
  }

  /**
   * The log line of a workflow that lacks a key: "Invalid workflow: " followed
   * by the message naming the key and the workflow.
   */
  lemma MissingKeyLogText(name: string, k: InfoKey)
    ensures LogLine(name, MissingKey(k)) ==
      "Invalid workflow: " + "The '" + KeyName(k) + "' key is required for the " + name + " workflow"
  {
  }

  /**
   * The lines the listing tests expect in the log for the workflows they skip:
   * keys that do not convert (the invalid-description, invalid-version and
   * invalid-arch workflows), keys that are missing (the missing-description and
   * missing-version workflows) and a name that is not a host name (the
   * 42-invalid-hostname workflow).
   */
  lemma ListingLogTexts(name: string)
    ensures LogLine(name, CannotConvertKey(DescriptionKey)) ==
      "Invalid workflow: " + "Cannot convert '" + "description" + "' key for the " + name + " workflow"
    ensures LogLine(name, CannotConvertKey(VersionKey)) ==
      "Invalid workflow: " + "Cannot convert '" + "version" + "' key for the " + name + " workflow"
    ensures LogLine(name, CannotConvertKey(RunsOnKey)) ==
      "Invalid workflow: " + "Cannot convert '" + "runs-on" + "' key for the " + name + " workflow"
    ensures LogLine(name, MissingKey(DescriptionKey)) ==
      "Invalid workflow: " + "The '" + "description" + "' key is required for the " + name + " workflow"
    ensures LogLine(name, MissingKey(VersionKey)) ==
      "Invalid workflow: " + "The '" + "version" + "' key is required for the " + name + " workflow"
    ensures LogLine(name, InvalidHostName) ==
      "Invalid workflow name '" + name + "': must be a valid host name"
  {
    ConvertKeyLogText(name, DescriptionKey);
    ConvertKeyLogText(name, VersionKey);
    ConvertKeyLogText(name, RunsOnKey);
    MissingKeyLogText(name, DescriptionKey);
    MissingKeyLogText(name, VersionKey);
  }

  /** The messages the lookup tests expect in the exceptions for invalid workflows. */
  lemma ExceptionTexts(name: string)
    ensures ErrorMessage(name, CannotConvertCloudInit) == "Cannot convert cloud-init data for the " + name + " workflow"
    ensures ErrorMessage(name, UnsupportedImageScheme) == "Unsupported image scheme in Workflow"
    ensures ErrorMessage(name, InvalidMinimumCpu) == "Minimum CPU value in workflow is invalid"
    ensures ErrorMessage(name, InvalidMinimumMemory) == "Minimum memory size value in workflow is invalid"
    ensures ErrorMessage(name, InvalidMinimumDisk) == "Minimum disk space value in workflow is invalid"
    ensures ErrorMessage(name, InvalidTimeout) == "Invalid timeout given in workflow"
  {
  }

  /** The lines the refresh tests expect in the log after a recoverable failure. */
  lemma RefreshLogTexts(url: string, message: string)
    ensures RecoverableLog(DownloadFailed(url, message)) ==
      "Error fetching workflows: failed to download from '" + url + "': " + message
    ensures RecoverableLog(ZipFailed("Illegal state: " + message)) ==
      "Error extracting Workflows zip file: " + "Illegal state: " + message
  {
  }

  lemma FirstWorkflowScenarios(c: Catalog)
    requires Lookup(c.entries, "test-workflow1") == Some(FirstWorkflow())
    ensures FetchOf(c, "test-workflow1", Unset) ==
      Success((ImageQuery("default", ""), VmDescription(2, 2 * Gi, 25 * Gi, Some(FirstCloudInit))))
    ensures FetchOf(c, "test-workflow1", Unset.(numCores := 1)) == Failure(BelowMinimum(MinimumViolation(Cpus, "2")))
    ensures FetchOf(c, "test-workflow1", Unset.(memSize := Gi)) == Failure(BelowMinimum(MinimumViolation(Memory, "2G")))
    ensures FetchOf(c, "test-workflow1", Unset.(diskSpace := 20 * Gi)) ==
      Failure(BelowMinimum(MinimumViolation(Disk, "25G")))
    ensures FetchOf(c, "test-workflow1", VmDescription(4, 4 * Gi, 50 * Gi, None)).value.1 ==
      VmDescription(4, 4 * Gi, 50 * Gi, Some(FirstCloudInit))
    ensures ResourceLabel(FetchOf(c, "test-workflow1", Unset.(numCores := 1)).error.violation.resource) == "Number of CPUs"
    ensures ResourceLabel(FetchOf(c, "test-workflow1", Unset.(memSize := Gi)).error.violation.resource) == "Memory size"
    ensures ResourceLabel(FetchOf(c, "test-workflow1", Unset.(diskSpace := 20 * Gi)).error.violation.resource) == "Disk space"
    ensures NameOf(c, "test-workflow1") == "test-workflow1"
    ensures TimeoutOf(c, "test-workflow1") == Success(600)
  {
  }

  lemma SecondWorkflowScenarios(c: Catalog)
    requires Lookup(c.entries, "test-workflow2") == Some(SecondWorkflow())
    ensures FetchOf(c, "test-workflow2", Unset) ==
      Success((ImageQuery("bionic", "daily"), VmDescription(4, 4 * Gi, 50 * Gi, None)))
    ensures InfoOf(c, "test-workflow2") == Success(ImageInfo(["test-workflow2"], "Another test workflow", "0.1"))
    ensures TimeoutOf(c, "test-workflow2") == Success(0)
  {
  }

  /** An unknown name: the lookups that must find a workflow fail, the lenient ones answer empty and 0. */
  lemma UnknownNameAnswers(c: Catalog, name: string, vm: VmDescription)
    requires forall i :: 0 <= i < |c.entries| ==> c.entries[i].name != name
    ensures InfoOf(c, name) == Failure(OutOfRange(name))
    ensures FetchOf(c, name, vm) == Failure(OutOfRange(name))
    ensures NameOf(c, name) == ""
    ensures TimeoutOf(c, name) == Success(0)
  {
  }
}

=== FILE: decimal.dfy ===
/** Decimal numerals: the digit strings the command parsers accept and the numbers they denote. */
module Decimal {

  predicate IsDigit(c: char) {
    '0' <= c <= '9'
  }

  /** Every character is one of 0-9 (vacuously true of the empty string). */
  predicate AllDigits(s: string) {
    forall i :: 0 <= i < |s| ==> IsDigit(s[i])
  }

  function DigitValue(c: char): (d: nat)
    requires IsDigit(c)
    ensures d < 10
  {
    c as int - '0' as int
  }

  function DigitChar(d: nat): (c: char)
    requires d < 10
    ensures IsDigit(c) && DigitValue(c) == d
  {
    ('0' as int + d) as char
  }

  /** The number a numeral denotes, most significant digit first; leading zeros are allowed. */
  function Value(s: string): nat
    requires AllDigits(s)
  {
    if |s| == 0 then 0 else 10 * Value(s[..|s| - 1]) + DigitValue(s[|s| - 1])
  }

  /** The shortest numeral of n. */
  function Format(n: nat): (s: string)
    ensures |s| > 0 && AllDigits(s)
  {
    if n < 10 then [DigitChar(n)] else Format(n / 10) + [DigitChar(n % 10)]
  }

  /** Reading back a formatted number gives the number. */
  lemma {:induction false} ValueOfFormat(n: nat)
    ensures Value(Format(n)) == n
  {
    if n >= 10 {
      var s := Format(n);
      assert s[..|s| - 1] == Format(n / 10);
      ValueOfFormat(n / 10);
    }
  }

  /** A numeral prefixed with zeros denotes the same number. */
  lemma {:induction false} ValueIgnoresLeadingZero(s: string)
    requires AllDigits(s)
    ensures AllDigits("0" + s) && Value("0" + s) == Value(s)
  {
    if |s| > 0 {
      var t := "0" + s;
      assert t[..|t| - 1] == "0" + s[..|s| - 1];
      ValueIgnoresLeadingZero(s[..|s| - 1]);
    }
  }
}

=== FILE: mount_command.dfy ===
/**
 * Argument validation of the `mount` client command: a source directory, one or
 * more `<name>[:<path>]` targets, and optional `<host>:<instance>` uid/gid maps.
 * The filesystem facts about the source and the host's own ids are inputs.
 */
module MountCommand {
  import opened Results
  import opened ArgParse
  import opened Decimal

  /** The largest value an unsigned 32-bit id conversion accepts. */
  const UIntMax: nat := 4294967295

  datatype IdKind = Uid | Gid

  /** Why parsing stopped; every kind except ParserStatus maps to CommandLineError. */
  datatype MountError =
    | ParserStatus(code: ParseCode)
    | NotEnoughArguments
    | SourceMissing(path: string)
    | SourceNotDirectory(path: string)
    | SourceNotReadable(path: string)
    | EmptyTarget(target: string)
    | InvalidMap(kind: IdKind, mapping: string)
    | InvalidId(id: string)

  /** What the command's parsed options hold; an option is set exactly when it has values. */
  datatype MountArgs = MountArgs(
    status: ParseCode,
    positionals: seq<string>,
    uidMaps: seq<string>,
    gidMaps: seq<string>)

  /** What the filesystem reports about the first positional argument. */
  datatype SourceDir = SourceDir(present: bool, isDir: bool, isReadable: bool, absolutePath: string)

  /** The client's own user and group ids, and the id they map to by default in the instance. */
  datatype HostIds = HostIds(uid: nat, gid: nat, defaultId: nat)

  datatype TargetPath = TargetPath(instanceName: string, targetPath: string)

  datatype IdPair = IdPair(hostId: nat, instanceId: nat)

  datatype MountRequest = MountRequest(
    sourcePath: string,
    targets: seq<TargetPath>,
    uidMappings: seq<IdPair>,
    gidMappings: seq<IdPair>)

  /** The parse code the command returns for an error. */
  function Code(e: MountError): (c: ParseCode)
    ensures e.ParserStatus? ==> c == e.code
    ensures !e.ParserStatus? ==> c == CommandLineError
  {
    match e
    case ParserStatus(code) => code
    case _ => CommandLineError
  }

  /**
   * The line the command writes to standard error for an error. EmptyTarget is
   * the corrected check's own error, so its wording is this model's.
   */
  function Diagnostic(e: MountError): (line: string)
    ensures e.ParserStatus? <==> line == ""
  {
    match e
    case ParserStatus(_) => ""
    case NotEnoughArguments => "Not enough arguments given"
    case SourceMissing(p) => "Source path \"" + p + "\" does not exist"
    case SourceNotDirectory(p) => "Source path \"" + p + "\" is not a directory"
    case SourceNotReadable(p) => "Source path \"" + p + "\" is not readable"
    case EmptyTarget(t) => "Invalid target given: " + t
    case InvalidMap(Uid, m) => "Invalid UID map given: " + m
    case InvalidMap(Gid, m) => "Invalid GID map given: " + m
    case InvalidId(id) => id + " is an invalid id"
  }

  // ---------------------------------------------------------------------------
  // Splitting on ':' with empty parts skipped
  // ---------------------------------------------------------------------------

  predicate ColonFree(s: string) {
    forall i :: 0 <= i < |s| ==> s[i] != ':'
  }

  /** The string with every ':' deleted. */
  function WithoutColons(s: string): (r: string)
    ensures ColonFree(r)
  {
    if |s| == 0 then "" else (if s[0] == ':' then "" else [s[0]]) + WithoutColons(s[1..])
  }

  function Concat(parts: seq<string>): string {
    if |parts| == 0 then "" else parts[0] + Concat(parts[1..])
  }

  predicate ProperParts(parts: seq<string>) {
    forall i :: 0 <= i < |parts| ==> |parts[i]| > 0 && ColonFree(parts[i])
  }

  /** Splits s at every ':' and drops the empty parts; cur is the part being collected. */
  function SplitFrom(s: string, cur: string): (parts: seq<string>)
    requires ColonFree(cur)
    ensures ProperParts(parts)
    ensures Concat(parts) == cur + WithoutColons(s)
  {
    if |s| == 0 then
      if cur == "" then [] else [cur]
    else if s[0] == ':' then
      if cur == "" then SplitFrom(s[1..], "") else [cur] + SplitFrom(s[1..], "")
    else
      SplitFrom(s[1..], cur + [s[0]])
  }

  /** The parts of s between colons, empty parts skipped: non-empty, colon-free, and together all of s but its colons. */
  function SplitSkipEmpty(s: string): (parts: seq<string>)
    ensures ProperParts(parts)
    ensures Concat(parts) == WithoutColons(s)
  {
    SplitFrom(s, "")
  }

  lemma {:induction false} SplitColonFree(s: string, cur: string)
    requires ColonFree(cur) && ColonFree(s)
    ensures SplitFrom(s, cur) == if cur + s == "" then [] else [cur + s]
  {
    if |s| > 0 {
      assert s[0] != ':';
      assert cur + s == (cur + [s[0]]) + s[1..];
      SplitColonFree(s[1..], cur + [s[0]]);
    } else {
      assert cur + s == cur;
    }
  }

  lemma {:induction false} SplitAfterColonFree(a: string, rest: string, cur: string)
    requires ColonFree(cur) && ColonFree(a)
    ensures SplitFrom(a + rest, cur) == SplitFrom(rest, cur + a)
  {
    if |a| > 0 {
      assert (a + rest)[0] == a[0];
      assert (a + rest)[1..] == a[1..] + rest;
      assert cur + a == (cur + [a[0]]) + a[1..];
      SplitAfterColonFree(a[1..], rest, cur + [a[0]]);
    } else {
      assert a + rest == rest && cur + a == cur;
    }
  }

  /** `name` splits to itself and `name:path` to its two halves. */
  lemma SplitTargetForms(name: string, path: string)
    requires |name| > 0 && ColonFree(name)
    requires |path| > 0 && ColonFree(path)
    ensures SplitSkipEmpty(name) == [name]
    ensures SplitSkipEmpty(name + ":" + path) == [name, path]
  {
    SplitColonFree(name, "");
    assert "" + name == name;
    var s := ":" + path;
    assert name + ":" + path == name + s;
    SplitAfterColonFree(name, s, "");
    assert s[0] == ':' && s[1..] == path;
    assert SplitFrom(s, name) == [name] + SplitFrom(path, "");
    SplitColonFree(path, "");
    assert "" + path == path;
  }

  lemma {:induction false} SplitFromAtColon(a: string, b: string, cur: string)
    requires ColonFree(cur)
    ensures SplitFrom(a + ":" + b, cur) == SplitFrom(a, cur) + SplitFrom(b, "")
    decreases |a|
  {
    if |a| == 0 {
      assert a + ":" + b == ":" + b;
      assert (":" + b)[0] == ':' && (":" + b)[1..] == b;
    } else {
      assert (a + ":" + b)[0] == a[0];
      assert (a + ":" + b)[1..] == a[1..] + ":" + b;
      if a[0] == ':' {
        SplitFromAtColon(a[1..], b, "");
        if cur != "" {
          assert ([cur] + SplitFrom(a[1..], "")) + SplitFrom(b, "") == [cur] + (SplitFrom(a[1..], "") + SplitFrom(b, ""));
        }
      } else {
        SplitFromAtColon(a[1..], b, cur + [a[0]]);
      }
    }
  }

  /** The split of a colon-free string: nothing when it is empty, otherwise the string itself. */
  lemma SplitOfColonFree(s: string)
    requires ColonFree(s)
    ensures SplitSkipEmpty(s) == if s == "" then [] else [s]
  {
    SplitColonFree(s, "");
    assert "" + s == s;
  }

  /** Every ':' is a break: the parts of `a:b` are the parts of a followed by the parts of b. */
  lemma SplitAtColon(a: string, b: string)
    ensures SplitSkipEmpty(a + ":" + b) == SplitSkipEmpty(a) + SplitSkipEmpty(b)
  {
    SplitFromAtColon(a, b, "");
  }

  // ---------------------------------------------------------------------------
  // Targets
  // ---------------------------------------------------------------------------

  /**
   * A target as the command builds it from its split parts: the first part names
   * the instance, the second (if any) is the mount point, otherwise the source's
   * absolute path is. Indexing the first part needs at least one part.
   */
  function TargetAsWritten(arg: string, absoluteSource: string): (t: TargetPath)
    requires |SplitSkipEmpty(arg)| > 0
    ensures |t.instanceName| > 0 && ColonFree(t.instanceName)
    ensures t.instanceName == SplitSkipEmpty(arg)[0]
    ensures |SplitSkipEmpty(arg)| == 1 ==> t.targetPath == absoluteSource
    ensures |SplitSkipEmpty(arg)| > 1 ==> t.targetPath == SplitSkipEmpty(arg)[1]
    ensures |SplitSkipEmpty(arg)| > 1 ==> |t.targetPath| > 0 && ColonFree(t.targetPath)
  {
    var parts := SplitSkipEmpty(arg);
    TargetPath(parts[0], if |parts| == 1 then absoluteSource else parts[1])
  }

  /** A target argument, rejected when it has no non-empty part at all (such as ":" or ""). */
  function ParseTarget(arg: string, absoluteSource: string): (r: Result<TargetPath, MountError>)
    ensures r.Failure? <==> WithoutColons(arg) == ""
    ensures r.Failure? ==> r.error == EmptyTarget(arg)
    ensures r.Success? ==> r.value == TargetAsWritten(arg, absoluteSource)
  {
    var parts := SplitSkipEmpty(arg);
    if |parts| == 0 then Failure(EmptyTarget(arg))
    else
      assert Concat(parts) == parts[0] + Concat(parts[1..]);
      Success(TargetAsWritten(arg, absoluteSource))
  }

  /** The `<name>[:<path>]` format read back: the name and the path, or the source when no path is given. */
  lemma TargetRoundTrip(name: string, path: string, absoluteSource: string)
    requires |name| > 0 && ColonFree(name)
    requires |path| > 0 && ColonFree(path)
    ensures ParseTarget(name, absoluteSource) == Success(TargetPath(name, absoluteSource))
    ensures ParseTarget(name + ":" + path, absoluteSource) == Success(TargetPath(name, path))
  {
    SplitTargetForms(name, path);
  }

  /** Parts after the second are dropped: `name:path:rest` mounts path on name, whatever rest is. */
  lemma TargetExtraPartsIgnored(name: string, path: string, rest: string, absoluteSource: string)
    requires |name| > 0 && ColonFree(name)
    requires |path| > 0 && ColonFree(path)
    ensures ParseTarget(name + ":" + path + ":" + rest, absoluteSource) == Success(TargetPath(name, path))
  {
    SplitAtColon(name + ":" + path, rest);
    SplitTargetForms(name, path);
  }

  /** Empty parts are skipped: `:name:` names the instance and mounts the source itself. */
  lemma EmptyPartsSkipped(name: string, absoluteSource: string)
    requires |name| > 0 && ColonFree(name)
    ensures ParseTarget(":" + name + ":", absoluteSource) == Success(TargetPath(name, absoluteSource))
  {
    assert ":" + name + ":" == "" + ":" + (name + ":" + "");
    SplitAtColon("", name + ":" + "");
    SplitAtColon(name, "");
    SplitOfColonFree("");
    SplitOfColonFree(name);
    assert SplitSkipEmpty(":" + name + ":") == [name];
  }

  /** A first rejected target among all but the first argument is the first rejected one overall when the first is accepted. */
  lemma FirstFailingTargetShifts(args: seq<string>, absoluteSource: string, e: MountError)
    requires |args| > 0 && ParseTarget(args[0], absoluteSource).Success?
    requires exists k :: (0 <= k < |args| - 1 && ParseTarget(args[1..][k], absoluteSource) == Failure(e)
      && forall j :: 0 <= j < k ==> ParseTarget(args[1..][j], absoluteSource).Success?)
    ensures exists k :: (0 <= k < |args| && ParseTarget(args[k], absoluteSource) == Failure(e)
      && forall j :: 0 <= j < k ==> ParseTarget(args[j], absoluteSource).Success?)
  {
    var k :| 0 <= k < |args| - 1 && ParseTarget(args[1..][k], absoluteSource) == Failure(e)
      && forall j :: 0 <= j < k ==> ParseTarget(args[1..][j], absoluteSource).Success?;
    assert args[1..][k] == args[k + 1];
    forall j | 0 <= j < k + 1 ensures ParseTarget(args[j], absoluteSource).Success? {
      if j > 0 {
        assert args[j] == args[1..][j - 1];
      }
    }
    assert ParseTarget(args[k + 1], absoluteSource) == Failure(e);
  }

  /** Every target argument after the source, in order; the first rejected one stops parsing. */
  function ParseTargets(args: seq<string>, absoluteSource: string): (r: Result<seq<TargetPath>, MountError>)
    ensures r.Success? <==> forall i :: 0 <= i < |args| ==> ParseTarget(args[i], absoluteSource).Success?
    ensures r.Success? ==> |r.value| == |args|
    ensures r.Success? ==> forall i :: 0 <= i < |args| ==> ParseTarget(args[i], absoluteSource) == Success(r.value[i])
    ensures r.Failure? ==> exists k :: (0 <= k < |args| && ParseTarget(args[k], absoluteSource) == Failure(r.error)
      && forall j :: 0 <= j < k ==> ParseTarget(args[j], absoluteSource).Success?)
  {
    if |args| == 0 then Success([])
    else
      var head :- ParseTarget(args[0], absoluteSource);
      var tail := ParseTargets(args[1..], absoluteSource);
      if tail.Failure? then
        FirstFailingTargetShifts(args, absoluteSource, tail.error);
        Failure(tail.error)
      else
        assert forall i :: 1 <= i < |args| ==> args[i] == args[1..][i - 1];
        Success([head] + tail.value)
  }

  // ---------------------------------------------------------------------------
  // Id maps
  // ---------------------------------------------------------------------------

  /** The map pattern `^([0-9]+[:][0-9]+)$`: digits, one colon, digits, and nothing else. */
  predicate MatchesMapPattern(s: string) {
    exists k :: 0 < k < |s| - 1 && s[k] == ':' && AllDigits(s[..k]) && AllDigits(s[k + 1..])
  }

  /** The index of the first ':' in s, or |s| when there is none. */
  function ColonIndex(s: string): (k: nat)
    ensures k <= |s|
    ensures forall i :: 0 <= i < k ==> s[i] != ':'
    ensures k < |s| ==> s[k] == ':'
  {
    if |s| == 0 || s[0] == ':' then 0 else 1 + ColonIndex(s[1..])
  }

  lemma PatternColonIsFirst(s: string, k: nat)
    requires 0 < k < |s| - 1 && s[k] == ':' && AllDigits(s[..k]) && AllDigits(s[k + 1..])
    ensures ColonIndex(s) == k
  {
    assert forall i :: 0 <= i < k ==> s[..k][i] == s[i];
  }

  lemma PatternColonFound(s: string)
    ensures MatchesMapPattern(s) ==>
      var k := ColonIndex(s); 0 < k < |s| - 1 && AllDigits(s[..k]) && AllDigits(s[k + 1..])
  {
    if MatchesMapPattern(s) {
      var j :| 0 < j < |s| - 1 && s[j] == ':' && AllDigits(s[..j]) && AllDigits(s[j + 1..]);
      PatternColonIsFirst(s, j);
    }
  }

  /** The two digit strings of a map that matches the pattern, or None when it does not. */
  function SplitMap(s: string): (r: Option<(string, string)>)
    ensures r.Some? <==> MatchesMapPattern(s)
    ensures r.Some? ==> |r.value.0| > 0 && AllDigits(r.value.0)
    ensures r.Some? ==> |r.value.1| > 0 && AllDigits(r.value.1)
    ensures r.Some? ==> s == r.value.0 + ":" + r.value.1
  {
    PatternColonFound(s);
    var k := ColonIndex(s);
    if 0 < k < |s| - 1 && AllDigits(s[..k]) && AllDigits(s[k + 1..]) then
      assert s == s[..k] + ":" + s[k + 1..];
      Some((s[..k], s[k + 1..]))
    else
      None
  }

  /** The unsigned 32-bit conversion of an id string: only numerals that fit succeed. */
  function ConvertId(s: string): (r: Result<nat, MountError>)
    ensures r.Success? <==> |s| > 0 && AllDigits(s) && Value(s) <= UIntMax
    ensures r.Success? ==> r.value == Value(s) && r.value <= UIntMax
    ensures r.Failure? ==> r.error == InvalidId(s)
  {
    if |s| > 0 && AllDigits(s) && Value(s) <= UIntMax then Success(Value(s)) else Failure(InvalidId(s))
  }

  /** One `<host>:<instance>` map: the pattern is checked first, then each id's conversion. */
  function ParseMap(kind: IdKind, s: string): (r: Result<IdPair, MountError>)
    ensures !MatchesMapPattern(s) ==> r == Failure(InvalidMap(kind, s))
    ensures r.Success? <==> MatchesMapPattern(s) && Value(SplitMap(s).value.0) <= UIntMax && Value(SplitMap(s).value.1) <= UIntMax
    ensures r.Success? ==> r.value == IdPair(Value(SplitMap(s).value.0), Value(SplitMap(s).value.1))
    // the host id is converted first, so a bad host id is the one reported
    ensures MatchesMapPattern(s) && Value(SplitMap(s).value.0) > UIntMax ==> r == Failure(InvalidId(SplitMap(s).value.0))
    ensures MatchesMapPattern(s) && Value(SplitMap(s).value.0) <= UIntMax && Value(SplitMap(s).value.1) > UIntMax ==>
      r == Failure(InvalidId(SplitMap(s).value.1))
  {
    match SplitMap(s)
    case None => Failure(InvalidMap(kind, s))
    case Some((host, instance)) =>
      var hostId :- ConvertId(host);
      var instanceId :- ConvertId(instance);
      Success(IdPair(hostId, instanceId))
  }

  function FormatMap(p: IdPair): string {
    Format(p.hostId) + ":" + Format(p.instanceId)
  }

  /** A map written as `<host>:<instance>` in decimal is read back as the same pair when both ids fit in 32 bits. */
  lemma MapRoundTrip(kind: IdKind, p: IdPair)
    requires p.hostId <= UIntMax && p.instanceId <= UIntMax
    ensures ParseMap(kind, FormatMap(p)) == Success(p)
  {
    var h, i := Format(p.hostId), Format(p.instanceId);
    var s := FormatMap(p);
    var k := |h|;
    assert s[..k] == h && s[k + 1..] == i && s[k] == ':';
    assert MatchesMapPattern(s);
    PatternColonIsFirst(s, k);
    ValueOfFormat(p.hostId);
    ValueOfFormat(p.instanceId);
  }

  /** Leading zeros are accepted by the pattern and the conversion: `0<host>:<instance>` names the same pair. */
  lemma LeadingZeroAccepted(kind: IdKind, p: IdPair)
    requires p.hostId <= UIntMax && p.instanceId <= UIntMax
    ensures ParseMap(kind, "0" + FormatMap(p)) == Success(p)
  {
    var h, i := Format(p.hostId), Format(p.instanceId);
    var s := "0" + FormatMap(p);
    var k := |h| + 1;
    assert s[..k] == "0" + h && s[k + 1..] == i && s[k] == ':';
    ValueIgnoresLeadingZero(h);
    PatternColonIsFirst(s, k);
    ValueOfFormat(p.hostId);
    ValueOfFormat(p.instanceId);
  }

  /** Two numerals joined by ':' match the pattern and split back into the two numerals. */
  lemma SplitOfWellFormedMap(h: string, i: string)
    requires |h| > 0 && AllDigits(h) && |i| > 0 && AllDigits(i)
    ensures SplitMap(h + ":" + i) == Some((h, i))
  {
    var s := h + ":" + i;
    var k := |h|;
    assert s[..k] == h && s[k + 1..] == i && s[k] == ':';
    PatternColonIsFirst(s, k);
  }

  /** An id beyond the unsigned 32-bit range makes an otherwise well-formed map fail with that id named. */
  lemma OversizedIdRejected(kind: IdKind, host: nat, instance: nat)
    requires host > UIntMax
    ensures ParseMap(kind, Format(host) + ":" + Format(instance)) == Failure(InvalidId(Format(host)))
    ensures Diagnostic(ParseMap(kind, Format(host) + ":" + Format(instance)).error) == Format(host) + " is an invalid id"
  {
    var h := Format(host);
    SplitOfWellFormedMap(h, Format(instance));
    ValueOfFormat(host);
    assert ConvertId(h) == Failure(InvalidId(h));
  }

  /** A first rejected map among all but the first is the first rejected one overall when the first is accepted. */
  lemma FirstFailingMapShifts(kind: IdKind, maps: seq<string>, e: MountError)
    requires |maps| > 0 && ParseMap(kind, maps[0]).Success?
    requires exists k :: (0 <= k < |maps| - 1 && ParseMap(kind, maps[1..][k]) == Failure(e)
      && forall j :: 0 <= j < k ==> ParseMap(kind, maps[1..][j]).Success?)
    ensures exists k :: (0 <= k < |maps| && ParseMap(kind, maps[k]) == Failure(e)
      && forall j :: 0 <= j < k ==> ParseMap(kind, maps[j]).Success?)
  {
    var k :| 0 <= k < |maps| - 1 && ParseMap(kind, maps[1..][k]) == Failure(e)
      && forall j :: 0 <= j < k ==> ParseMap(kind, maps[1..][j]).Success?;
    assert maps[1..][k] == maps[k + 1];
    forall j | 0 <= j < k + 1 ensures ParseMap(kind, maps[j]).Success? {
      if j > 0 {
        assert maps[j] == maps[1..][j - 1];
      }
    }
    assert ParseMap(kind, maps[k + 1]) == Failure(e);
  }

  /** Every map of one option, in the order given; the first rejected one stops parsing. */
  function ParseMaps(kind: IdKind, maps: seq<string>): (r: Result<seq<IdPair>, MountError>)
    ensures r.Success? <==> forall i :: 0 <= i < |maps| ==> ParseMap(kind, maps[i]).Success?
    ensures r.Success? ==> |r.value| == |maps|
    ensures r.Success? ==> forall i :: 0 <= i < |maps| ==> ParseMap(kind, maps[i]) == Success(r.value[i])
    ensures r.Failure? ==> exists k :: (0 <= k < |maps| && ParseMap(kind, maps[k]) == Failure(r.error)
      && forall j :: 0 <= j < k ==> ParseMap(kind, maps[j]).Success?)
  {
    if |maps| == 0 then Success([])
    else
      var head :- ParseMap(kind, maps[0]);
      var tail := ParseMaps(kind, maps[1..]);
      if tail.Failure? then
        FirstFailingMapShifts(kind, maps, tail.error);
        Failure(tail.error)
      else
        assert forall i :: 1 <= i < |maps| ==> maps[i] == maps[1..][i - 1];
        Success([head] + tail.value)
  }

  // ---------------------------------------------------------------------------
  // The whole command
  // ---------------------------------------------------------------------------

  predicate SourceUsable(src: SourceDir) {
    src.present && src.isDir && src.isReadable
  }

  /** The id mappings the request carries once every target has been accepted. */
  function Mappings(args: MountArgs, host: HostIds): (r: Result<(seq<IdPair>, seq<IdPair>), MountError>)
    ensures |args.uidMaps| == 0 && |args.gidMaps| == 0 ==>
      r == Success(([IdPair(host.uid, host.defaultId)], [IdPair(host.gid, host.defaultId)]))
    ensures r.Success? <==> ParseMaps(Uid, args.uidMaps).Success? && ParseMaps(Gid, args.gidMaps).Success?
    ensures r.Success? && (|args.uidMaps| > 0 || |args.gidMaps| > 0) ==>
      r.value == (ParseMaps(Uid, args.uidMaps).value, ParseMaps(Gid, args.gidMaps).value)
    ensures ParseMaps(Uid, args.uidMaps).Failure? ==> r == Failure(ParseMaps(Uid, args.uidMaps).error)
    ensures ParseMaps(Uid, args.uidMaps).Success? && ParseMaps(Gid, args.gidMaps).Failure? ==>
      r == Failure(ParseMaps(Gid, args.gidMaps).error)
  {
    var uids :- ParseMaps(Uid, args.uidMaps);
    var gids :- ParseMaps(Gid, args.gidMaps);
    if |args.uidMaps| == 0 && |args.gidMaps| == 0 then
      Success(([IdPair(host.uid, host.defaultId)], [IdPair(host.gid, host.defaultId)]))
    else
      Success((uids, gids))
  }

  /** The command's argument parsing: the request it fills, or the first error met. */
  function ParseMount(args: MountArgs, src: SourceDir, host: HostIds): (r: Result<MountRequest, MountError>)
    // a failed generic parse is returned as it is, before any of the command's own checks
    ensures args.status != Ok ==> r == Failure(ParserStatus(args.status))
    ensures args.status == Ok && |args.positionals| < 2 ==> r == Failure(NotEnoughArguments)
    // the source checks, in the order existence, directory, readability
    ensures args.status == Ok && |args.positionals| >= 2 && !src.present ==>
      r == Failure(SourceMissing(args.positionals[0]))
    ensures args.status == Ok && |args.positionals| >= 2 && src.present && !src.isDir ==>
      r == Failure(SourceNotDirectory(args.positionals[0]))
    ensures args.status == Ok && |args.positionals| >= 2 && src.present && src.isDir && !src.isReadable ==>
      r == Failure(SourceNotReadable(args.positionals[0]))
    ensures r.Failure? && args.status == Ok ==> Code(r.error) == CommandLineError
    // a rejected target, then a rejected map, is the error returned
    ensures args.status == Ok && |args.positionals| >= 2 && SourceUsable(src)
            && ParseTargets(args.positionals[1..], src.absolutePath).Failure? ==>
      r == Failure(ParseTargets(args.positionals[1..], src.absolutePath).error)
    ensures args.status == Ok && |args.positionals| >= 2 && SourceUsable(src)
            && ParseTargets(args.positionals[1..], src.absolutePath).Success? && Mappings(args, host).Failure? ==>
      r == Failure(Mappings(args, host).error)
    // one target per positional after the source, in order
    ensures r.Success? ==>
      && args.status == Ok && |args.positionals| >= 2 && SourceUsable(src)
      && r.value.sourcePath == src.absolutePath
      && |r.value.targets| == |args.positionals| - 1
      && forall i :: 1 <= i < |args.positionals| ==>
           ParseTarget(args.positionals[i], src.absolutePath) == Success(r.value.targets[i - 1])
    // the mappings: exactly the maps given, or the two defaults when neither option is set
    ensures r.Success? && |args.uidMaps| == 0 && |args.gidMaps| == 0 ==>
      r.value.uidMappings == [IdPair(host.uid, host.defaultId)] && r.value.gidMappings == [IdPair(host.gid, host.defaultId)]
    ensures r.Success? && (|args.uidMaps| > 0 || |args.gidMaps| > 0) ==>
      && |r.value.uidMappings| == |args.uidMaps|
      && (forall i :: 0 <= i < |args.uidMaps| ==> ParseMap(Uid, args.uidMaps[i]) == Success(r.value.uidMappings[i]))
      && |r.value.gidMappings| == |args.gidMaps|
      && (forall i :: 0 <= i < |args.gidMaps| ==> ParseMap(Gid, args.gidMaps[i]) == Success(r.value.gidMappings[i]))
    // once source and targets are accepted, parsing succeeds exactly when every map does
    ensures args.status == Ok && |args.positionals| >= 2 && SourceUsable(src)
            && ParseTargets(args.positionals[1..], src.absolutePath).Success? ==>
      (r.Success? <==> (forall i :: 0 <= i < |args.uidMaps| ==> ParseMap(Uid, args.uidMaps[i]).Success?)
                       && (forall i :: 0 <= i < |args.gidMaps| ==> ParseMap(Gid, args.gidMaps[i]).Success?))
  {
    if args.status != Ok then Failure(ParserStatus(args.status))
    else if |args.positionals| < 2 then Failure(NotEnoughArguments)
    else if !src.present then Failure(SourceMissing(args.positionals[0]))
    else if !src.isDir then Failure(SourceNotDirectory(args.positionals[0]))
    else if !src.isReadable then Failure(SourceNotReadable(args.positionals[0]))
    else
      var targets :- ParseTargets(args.positionals[1..], src.absolutePath);
      var maps :- Mappings(args, host);
      assert forall i :: 1 <= i < |args.positionals| ==> args.positionals[i] == args.positionals[1..][i - 1];
      Success(MountRequest(src.absolutePath, targets, maps.0, maps.1))
  }

  /** A map that breaks the pattern is reported as invalid for its option, whatever else is given. */
  lemma MalformedMapRejected(args: MountArgs, src: SourceDir, host: HostIds, k: nat)
    requires args.status == Ok && |args.positionals| >= 2 && SourceUsable(src)
    requires ParseTargets(args.positionals[1..], src.absolutePath).Success?
    requires k < |args.uidMaps| && !MatchesMapPattern(args.uidMaps[k])
    ensures ParseMount(args, src, host).Failure?
    ensures Code(ParseMount(args, src, host).error) == CommandLineError
  {
    assert !ParseMap(Uid, args.uidMaps[k]).Success?;
  }

  /** Giving only gid maps leaves the uid mappings empty: no default is added for the option not given. */
  lemma GidMapsOnlyMeansNoUidMapping(args: MountArgs, src: SourceDir, host: HostIds)
    requires args.uidMaps == [] && |args.gidMaps| > 0
    requires ParseMount(args, src, host).Success?
    ensures ParseMount(args, src, host).value.uidMappings == []
    ensures |ParseMount(args, src, host).value.gidMappings| == |args.gidMaps|
  {
  }

  /** The standard-error line of each of the command's own refusals, as the source writes it. */
  lemma MountDiagnostics(args: MountArgs, src: SourceDir, host: HostIds)
    requires args.status == Ok
    ensures |args.positionals| < 2 ==> Diagnostic(ParseMount(args, src, host).error) == "Not enough arguments given"
    ensures |args.positionals| >= 2 && !src.present ==>
      Diagnostic(ParseMount(args, src, host).error) == "Source path \"" + args.positionals[0] + "\" does not exist"
    ensures |args.positionals| >= 2 && src.present && !src.isDir ==>
      Diagnostic(ParseMount(args, src, host).error) == "Source path \"" + args.positionals[0] + "\" is not a directory"
    ensures |args.positionals| >= 2 && src.present && src.isDir && !src.isReadable ==>
      Diagnostic(ParseMount(args, src, host).error) == "Source path \"" + args.positionals[0] + "\" is not readable"
  {
  }

  /** A map that breaks the pattern is reported with its option's line and the map as given. */
  lemma MalformedMapDiagnostic(kind: IdKind, m: string)
    requires !MatchesMapPattern(m)
    ensures Diagnostic(ParseMap(kind, m).error) ==
      (if kind == Uid then "Invalid UID map given: " else "Invalid GID map given: ") + m
  {
  }

  /**
   * The as-written command indexes the first split part of every target, so a
   * target with no non-empty part (":" here) is outside what it can handle.
   */
  lemma ColonOnlyTargetHasNoParts()
    ensures SplitSkipEmpty(":") == []
  {
    var s := ":";
    assert s[0] == ':' && s[1..] == "";
  }
}

=== FILE: provisioning.dfy ===
/**
 * Applying a workflow to a VM description: the workflow's resource minimums are
 * merged into the caller's requested cores, memory and disk, its cloud-init data
 * becomes the vendor data, and its image reference becomes the image query.
 */
module Provisioning {
  import opened Results

  datatype Resource = Cpus | Memory | Disk

  /** How a resource is named in a minimum-violation message. */
  function ResourceLabel(res: Resource): string {
    match res
    case Cpus => "Number of CPUs"
    case Memory => "Memory size"
    case Disk => "Disk space"
  }

  /** A workflow minimum: the amount (a core count or a byte count) and the text it was written as ("2", "2G"). */
  datatype Minimum = Minimum(amount: nat, text: string)

  /** Cloud-init content; its structure is not modelled. */
  datatype CloudInit = CloudInit(document: string)

  /** The image a launch asks for. */
  datatype ImageQuery = ImageQuery(release: string, remoteName: string)

  /** The release asked for when a workflow names no image. */
  const DefaultRelease := "default"

  /** The launch-relevant part of a workflow that parsed successfully. */
  datatype LaunchSpec = LaunchSpec(
    image: Option<ImageQuery>,
    minCores: Option<Minimum>,
    minMemory: Option<Minimum>,
    minDisk: Option<Minimum>,
    cloudInit: Option<CloudInit>)

  /** The caller's VM description; 0 means "no preference expressed". */
  datatype VmDescription = VmDescription(numCores: nat, memSize: nat, diskSpace: nat, vendorData: Option<CloudInit>)

  /** The requested amount fell short of the workflow's minimum for `resource`. */
  datatype MinimumViolation = MinimumViolation(resource: Resource, required: string)

  function Amount(vm: VmDescription, res: Resource): nat {
    match res
    case Cpus => vm.numCores
    case Memory => vm.memSize
    case Disk => vm.diskSpace
  }

  function MinimumOf(spec: LaunchSpec, res: Resource): Option<Minimum> {
    match res
    case Cpus => spec.minCores
    case Memory => spec.minMemory
    case Disk => spec.minDisk
  }

  /** The requested amount is set but smaller than the workflow's minimum for it. */
  predicate Short(vm: VmDescription, spec: LaunchSpec, res: Resource) {
    MinimumOf(spec, res).Some? && 0 < Amount(vm, res) < MinimumOf(spec, res).value.amount
  }

  /** Every resource the workflow bounds from below holds at least its minimum. */
  predicate MeetsMinimums(vm: VmDescription, spec: LaunchSpec) {
    forall res: Resource :: MinimumOf(spec, res).Some? ==> Amount(vm, res) >= MinimumOf(spec, res).value.amount
  }

  /**
   * One resource: an unset amount is raised to the minimum, a set amount below
   * the minimum is refused naming the resource and the minimum as written, and
   * any other amount is kept.
   */
  function MergeAmount(current: nat, min: Option<Minimum>, res: Resource): (r: Result<nat, MinimumViolation>)
    ensures r.Failure? <==> min.Some? && 0 < current < min.value.amount
    ensures r.Failure? ==> r.error == MinimumViolation(res, min.value.text)
    ensures r.Success? && current != 0 ==> r.value == current
    ensures r.Success? && current == 0 && min.Some? ==> r.value == min.value.amount
    ensures r.Success? && min.None? ==> r.value == current
  {
    match min
    case None => Success(current)
    case Some(m) =>
      if current == 0 then Success(m.amount)
      else if current < m.amount then Failure(MinimumViolation(res, m.text))
      else Success(current)
  }

  /** Cloud-init data: the caller's own is never replaced; otherwise the workflow's (possibly none) is taken. */
  function MergeCloudInit(current: Option<CloudInit>, workflow: Option<CloudInit>): (r: Option<CloudInit>)
    ensures current.Some? ==> r == current
    ensures current.None? ==> r == workflow
  {
    if current.Some? then current else workflow
  }

  /** The image query a workflow resolves to: its own image, or the default release. */
  function ImageFor(spec: LaunchSpec): (q: ImageQuery)
    ensures spec.image.Some? ==> q == spec.image.value
    ensures spec.image.None? ==> q.release == DefaultRelease
  {
    match spec.image
    case Some(image) => image
    case None => ImageQuery(DefaultRelease, "")
  }

  /** Merges a workflow into a VM description; fails when a set amount is below its minimum. */
  function Apply(spec: LaunchSpec, vm: VmDescription): (r: Result<(ImageQuery, VmDescription), MinimumViolation>)
    ensures r.Failure? <==> exists res: Resource :: Short(vm, spec, res)
    ensures r.Failure? ==> Short(vm, spec, r.error.resource)
    ensures r.Failure? ==> r.error.required == MinimumOf(spec, r.error.resource).value.text
    ensures r.Success? ==> r.value.0 == ImageFor(spec)
    ensures r.Success? ==> MeetsMinimums(r.value.1, spec)
    ensures r.Success? ==> forall res: Resource :: Amount(vm, res) != 0 ==> Amount(r.value.1, res) == Amount(vm, res)
    ensures r.Success? ==> forall res: Resource :: Amount(vm, res) == 0 && MinimumOf(spec, res).Some? ==>
      Amount(r.value.1, res) == MinimumOf(spec, res).value.amount
    ensures r.Success? ==> forall res: Resource :: Amount(vm, res) == 0 && MinimumOf(spec, res).None? ==>
      Amount(r.value.1, res) == 0
    ensures r.Success? ==> r.value.1.vendorData == MergeCloudInit(vm.vendorData, spec.cloudInit)
  {
    var cores := MergeAmount(vm.numCores, spec.minCores, Cpus);
    var memory := MergeAmount(vm.memSize, spec.minMemory, Memory);
    var disk := MergeAmount(vm.diskSpace, spec.minDisk, Disk);
    if cores.Failure? then
      assert Short(vm, spec, Cpus);
      Failure(cores.error)
    else if memory.Failure? then
      assert Short(vm, spec, Memory);
      Failure(memory.error)
    else if disk.Failure? then
      assert Short(vm, spec, Disk);
      Failure(disk.error)
    else
      var merged := VmDescription(cores.value, memory.value, disk.value, MergeCloudInit(vm.vendorData, spec.cloudInit));
      assert forall res: Resource :: (Amount(merged, res) ==
        if res == Cpus then cores.value else if res == Memory then memory.value else disk.value);
      Success((ImageFor(spec), merged))
  }

  /** Applying the same workflow to its own result changes nothing: the merge is idempotent. */
  lemma ApplyIdempotent(spec: LaunchSpec, vm: VmDescription)
    requires Apply(spec, vm).Success?
    ensures Apply(spec, Apply(spec, vm).value.1) == Apply(spec, vm)
  {
    var once := Apply(spec, vm).value.1;
    forall res: Resource ensures !Short(once, spec, res) {
    }
    var twice := Apply(spec, once).value.1;
    assert twice.numCores == once.numCores by { assert Amount(vm, Cpus) == vm.numCores; }
    assert twice.memSize == once.memSize by { assert Amount(vm, Memory) == vm.memSize; }
    assert twice.diskSpace == once.diskSpace by { assert Amount(vm, Disk) == vm.diskSpace; }
  }

  /** A description whose amounts are all set and at least the minimums is returned unchanged. */
  lemma SufficientRequestUnchanged(spec: LaunchSpec, vm: VmDescription)
    requires forall res: Resource :: Amount(vm, res) != 0
    requires MeetsMinimums(vm, spec)
    requires vm.vendorData.Some? || spec.cloudInit.None?
    ensures Apply(spec, vm) == Success((ImageFor(spec), vm))
  {
    forall res: Resource ensures !Short(vm, spec, res) {
    }
    var merged := Apply(spec, vm).value.1;
    assert merged.numCores == vm.numCores by { assert Amount(vm, Cpus) == vm.numCores; }
    assert merged.memSize == vm.memSize by { assert Amount(vm, Memory) == vm.memSize; }
    assert merged.diskSpace == vm.diskSpace by { assert Amount(vm, Disk) == vm.diskSpace; }
  }
}

=== FILE: results.dfy ===
/** Failure-compatible wrappers shared by the command parsers and the workflow catalog. */
module Results {

  /** An optional value: the source's "maybe absent" fields and lookups. */
  datatype Option<+T> = None | Some(value: T)

  /** Either a computed value or the error the source would raise or return instead. */
  datatype Result<+T, +E> = Success(value: T) | Failure(error: E) {

    predicate IsFailure() {
      Failure?
    }

    function PropagateFailure<U>(): Result<U, E>
      requires Failure?
    {
      Failure(error)
    }

    function Extract(): T
      requires Success?
    {
      value
    }
  }
}

=== FILE: stop_command.dfy ===
/**
 * Argument validation of the `stop` client command: instance names (or --all),
 * an optional delay in minutes (`--time`, default "0") and `--cancel`.
 * The name/--all conflict check and the instance-name list come from shared
 * command helpers and are inputs here.
 */
module StopCommand {
  import opened Results
  import opened ArgParse
  import opened Decimal

  /** The largest delay the signed 32-bit minute count can hold. */
  const Int32Max: nat := 2147483647

  /** What the command's parsed options hold; `time` is None when --time was not given. */
  datatype StopArgs = StopArgs(
    status: ParseCode,
    positionals: seq<string>,
    time: Option<string>,
    cancel: bool)

  /**
   * What the shared helpers answer: the configured primary instance name, the
   * verdict of the name/--all conflict check, the instance names to stop, and
   * whether the digit check accepts the empty string.
   */
  datatype StopEnv = StopEnv(
    primaryName: string,
    nameCheck: ParseCode,
    instanceNames: seq<string>,
    emptyIsDigits: bool)

  datatype StopRequest = StopRequest(instanceNames: seq<string>, timeMinutes: nat, cancelShutdown: bool)

  datatype StopError =
    | ParserStatus(code: ParseCode)
    | NameConflict(code: ParseCode, primaryDisabledNote: bool)
    | TimeWithCancel
    | TimeNotDigits(time: string)
    | TimeOutOfRange(time: string)

  /** The parse code the command returns for an error. */
  function Code(e: StopError): (c: ParseCode)
    ensures e.ParserStatus? || e.NameConflict? ==> c == e.code
    ensures !(e.ParserStatus? || e.NameConflict?) ==> c == CommandLineError
  {
    match e
    case ParserStatus(code) => code
    case NameConflict(code, _) => code
    case _ => CommandLineError
  }

  /**
   * The line the command writes to standard error for an error of its own; the
   * name/--all conflict's own message comes from the shared helper. TimeOutOfRange
   * is the corrected conversion's error, so its wording is this model's.
   */
  function Diagnostic(e: StopError): (line: string)
    ensures e.ParserStatus? ==> line == ""
    ensures e.TimeWithCancel? || e.TimeNotDigits? || e.TimeOutOfRange? ==> |line| > 0
  {
    match e
    case ParserStatus(_) => ""
    case NameConflict(_, note) => if note then "Note: the primary instance is disabled." else ""
    case TimeWithCancel => "Cannot set 'time' and 'cancel' options at the same time"
    case TimeNotDigits(_) => "Time must be in digit form"
    case TimeOutOfRange(t) => "Time is too large: " + t
  }

  /** The value of --time: the given one, or the option's default "0". */
  function TimeValue(args: StopArgs): (t: string)
    ensures args.time.Some? ==> t == args.time.value
    ensures args.time.None? ==> t == "0"
  {
    match args.time
    case Some(t) => t
    case None => "0"
  }

  /** Removes one leading '+', and only one. */
  function StripPlus(t: string): (r: string)
    ensures |t| > 0 && t[0] == '+' ==> r == t[1..]
    ensures !(|t| > 0 && t[0] == '+') ==> r == t
    ensures |r| >= |t| - 1
  {
    if |t| > 0 && t[0] == '+' then t[1..] else t
  }

  /** The digit check: every character is 0-9; its answer on the empty string is an input. */
  predicate HasOnlyDigits(t: string, env: StopEnv) {
    if t == "" then env.emptyIsDigits else AllDigits(t)
  }

  /**
   * The minute count as the command converts it: a signed 32-bit conversion
   * that yields `failed` for a numeral it cannot represent (and for "").
   */
  function TimeMinutesAsWritten(t: string, failed: int): (m: int)
    requires AllDigits(t)
    ensures |t| > 0 && Value(t) <= Int32Max ==> m == Value(t)
    ensures !(|t| > 0 && Value(t) <= Int32Max) ==> m == failed
  {
    if |t| > 0 && Value(t) <= Int32Max then Value(t) else failed
  }

  /** A delay longer than the 32-bit range converts to the same minute count as no delay at all, 0. */
  lemma OverlongDelayBecomesImmediate(n: nat)
    requires n > Int32Max
    ensures TimeMinutesAsWritten(Format(n), 0) == TimeMinutesAsWritten(Format(0), 0) == 0
  {
    ValueOfFormat(n);
  }

  /**
   * The minute count, refused when the numeral is beyond the 32-bit range. An
   * empty time (one the digit check let through) converts to 0, as the signed
   * conversion of "" does.
   */
  function TimeMinutes(t: string): (r: Result<nat, StopError>)
    requires AllDigits(t)
    ensures t == "" ==> r == Success(0)
    ensures |t| > 0 ==> (r.Success? <==> Value(t) <= Int32Max)
    ensures r.Success? && |t| > 0 ==> r.value == Value(t)
    ensures r.Success? ==> r.value <= Int32Max
    ensures r.Failure? ==> r.error == TimeOutOfRange(t)
    // wherever the corrected conversion answers, it agrees with the one as written
    ensures r.Success? ==> r.value == TimeMinutesAsWritten(t, 0)
  {
    if t == "" then Success(0)
    else if Value(t) <= Int32Max then Success(Value(t))
    else Failure(TimeOutOfRange(t))
  }

  /** The command's argument parsing: the request it fills, or the first error met. */
  function ParseStop(args: StopArgs, env: StopEnv, prior: StopRequest): (r: Result<StopRequest, StopError>)
    ensures args.status != Ok ==> r == Failure(ParserStatus(args.status))
    // the name/--all conflict is reported before any time or cancel check
    ensures args.status == Ok && env.nameCheck != Ok ==>
      r == Failure(NameConflict(env.nameCheck, env.primaryName == "" && args.positionals == []))
    ensures args.status == Ok && env.nameCheck == Ok && args.time.Some? && args.cancel ==>
      r == Failure(TimeWithCancel)
    ensures args.status == Ok && env.nameCheck == Ok && !(args.time.Some? && args.cancel)
            && !HasOnlyDigits(StripPlus(TimeValue(args)), env) ==>
      r == Failure(TimeNotDigits(StripPlus(TimeValue(args))))
    ensures r.Failure? && args.status == Ok && env.nameCheck == Ok ==> Code(r.error) == CommandLineError
    // a digit-form time is accepted exactly when it fits the 32-bit range
    ensures args.status == Ok && env.nameCheck == Ok && !(args.time.Some? && args.cancel) ==>
      var t := StripPlus(TimeValue(args));
      HasOnlyDigits(t, env) && (t == "" || Value(t) <= Int32Max) ==> r.Success?
    ensures args.status == Ok && env.nameCheck == Ok && !(args.time.Some? && args.cancel) ==>
      var t := StripPlus(TimeValue(args));
      HasOnlyDigits(t, env) && t != "" && Value(t) > Int32Max ==> r == Failure(TimeOutOfRange(t))
    // on success: the delay is the numeral after one '+', within range, and 0 for an empty one
    ensures r.Success? ==>
      && args.status == Ok && env.nameCheck == Ok && !(args.time.Some? && args.cancel)
      && var t := StripPlus(TimeValue(args));
         && HasOnlyDigits(t, env)
         && (t == "" ==> r.value.timeMinutes == 0)
         && (t != "" ==> Value(t) <= Int32Max && r.value.timeMinutes == Value(t))
    // cancellation is switched on by --cancel and otherwise left as it was
    ensures r.Success? ==> r.value.cancelShutdown == (args.cancel || prior.cancelShutdown)
    ensures r.Success? ==> r.value.instanceNames == env.instanceNames
    // without --time, the delay defaults to no delay
    ensures args.status == Ok && env.nameCheck == Ok && args.time.None? ==>
      r.Success? && r.value.timeMinutes == 0
  {
    if args.status != Ok then Failure(ParserStatus(args.status))
    else if env.nameCheck != Ok then
      Failure(NameConflict(env.nameCheck, env.primaryName == "" && args.positionals == []))
    else if args.time.Some? && args.cancel then Failure(TimeWithCancel)
    else
      var t := StripPlus(TimeValue(args));
      assert args.time.None? ==> t == "0" && AllDigits(t) && Value(t) == 0 by {
        assert "0"[0] != '+' && "0"[..0] == "";
      }
      if !HasOnlyDigits(t, env) then Failure(TimeNotDigits(t))
      else
        var minutes :- TimeMinutes(t);
        Success(StopRequest(env.instanceNames, minutes, args.cancel || prior.cancelShutdown))
  }

  /** A delay written in decimal, with or without one leading '+', is read back as the same number of minutes. */
  lemma DelayRoundTrip(args: StopArgs, env: StopEnv, prior: StopRequest, n: nat)
    requires args.status == Ok && env.nameCheck == Ok && !args.cancel && n <= Int32Max
    requires args.time == Some(Format(n)) || args.time == Some("+" + Format(n))
    ensures ParseStop(args, env, prior).Success?
    ensures ParseStop(args, env, prior).value.timeMinutes == n
    ensures !ParseStop(args, env, prior).value.cancelShutdown || prior.cancelShutdown
  {
    var s := Format(n);
    assert ("+" + s)[1..] == s;
    if args.time == Some(s) {
      assert |s| > 0 && s[0] != '+';
    }
    ValueOfFormat(n);
  }

  /** A time that strips to nothing (`+`, or an empty value) is decided by the digit check alone; accepted, it means no delay. */
  lemma EmptyTimeFollowsDigitCheck(args: StopArgs, env: StopEnv, prior: StopRequest)
    requires args.status == Ok && env.nameCheck == Ok && !args.cancel
    requires args.time == Some("+") || args.time == Some("")
    ensures env.emptyIsDigits ==> ParseStop(args, env, prior).Success?
    ensures env.emptyIsDigits ==> ParseStop(args, env, prior).value.timeMinutes == 0
    ensures !env.emptyIsDigits ==> ParseStop(args, env, prior) == Failure(TimeNotDigits(""))
  {
    assert "+"[1..] == "";
  }

  /** The standard-error line of each of the command's own refusals, as the source writes it. */
  lemma StopDiagnostics(args: StopArgs, env: StopEnv, prior: StopRequest)
    requires args.status == Ok
    ensures env.nameCheck != Ok && env.primaryName == "" && args.positionals == [] ==>
      Diagnostic(ParseStop(args, env, prior).error) == "Note: the primary instance is disabled."
    ensures env.nameCheck == Ok && args.time.Some? && args.cancel ==>
      Diagnostic(ParseStop(args, env, prior).error) == "Cannot set 'time' and 'cancel' options at the same time"
    ensures ParseStop(args, env, prior).Failure? && ParseStop(args, env, prior).error.TimeNotDigits? ==>
      Diagnostic(ParseStop(args, env, prior).error) == "Time must be in digit form"
  {
  }

  /** Leaving out --time is the same as asking for a delay of 0 minutes. */
  lemma NoTimeIsTimeZero(args: StopArgs, env: StopEnv, prior: StopRequest)
    requires !args.cancel
    ensures ParseStop(args.(time := None), env, prior) == ParseStop(args.(time := Some("0")), env, prior)
  {
  }

  /** Only one '+' is removed: a second one leaves a non-digit, and the time is rejected. */
  lemma SecondPlusRejected(args: StopArgs, env: StopEnv, prior: StopRequest, t: string)
    requires args.status == Ok && env.nameCheck == Ok && !args.cancel
    requires args.time == Some("++" + t)
    ensures ParseStop(args, env, prior) == Failure(TimeNotDigits("+" + t))
  {
    assert ("++" + t)[1..] == "+" + t;
    assert ("+" + t)[0] == '+';
  }

  /** The as-written conversion turns an over-long delay into an immediate stop, which the model refuses. */
  lemma OverlongDelayRefused(args: StopArgs, env: StopEnv, prior: StopRequest, n: nat)
    requires args.status == Ok && env.nameCheck == Ok && !args.cancel && n > Int32Max
    requires args.time == Some(Format(n))
    ensures TimeMinutesAsWritten(Format(n), 0) == 0
    ensures ParseStop(args, env, prior) == Failure(TimeOutOfRange(Format(n)))
  {
    var s := Format(n);
    assert |s| > 0 && s[0] != '+';
    ValueOfFormat(n);
  }
}

=== FILE: workflow_catalog.dfy ===
/**
 * The workflow catalog: a cached, periodically refreshed set of parsed workflow
 * entries, and the lookups the daemon makes against it. Downloading and
 * unpacking the archive and parsing each workflow's document are not modelled:
 * a refresh attempt is given its outcome, and each entry arrives already
 * classified as valid or invalid, aspect by aspect.
 */
module WorkflowCatalog {
  import opened Results
  import opened Provisioning

  // ---------------------------------------------------------------------------
  // Entries
  // ---------------------------------------------------------------------------

  datatype InfoKey = DescriptionKey | VersionKey | RunsOnKey

  function KeyName(k: InfoKey): string {
    match k
    case DescriptionKey => "description"
    case VersionKey => "version"
    case RunsOnKey => "runs-on"
  }

  /** What can be wrong with one workflow, each with its own message. */
  datatype WorkflowError =
    | MissingKey(key: InfoKey)
    | CannotConvertKey(key: InfoKey)
    | InvalidHostName
    | UnsupportedImageScheme
    | InvalidMinimumCpu
    | InvalidMinimumMemory
    | InvalidMinimumDisk
    | CannotConvertCloudInit
    | InvalidTimeout

  /** The message an invalid workflow is reported with; a key or cloud-init error ends by naming the workflow. */
  function ErrorMessage(name: string, e: WorkflowError): (m: string)
    ensures e.MissingKey? || e.CannotConvertKey? || e.CannotConvertCloudInit? ==>
      |m| >= |name| + 9 && m[|m| - |name| - 9..] == name + " workflow"
    ensures |m| > 0
  {
    match e
    case MissingKey(k) => "The '" + KeyName(k) + "' key is required for the " + name + " workflow"
    case CannotConvertKey(k) => "Cannot convert '" + KeyName(k) + "' key for the " + name + " workflow"
    case InvalidHostName => "Invalid workflow name '" + name + "': must be a valid host name"
    case UnsupportedImageScheme => "Unsupported image scheme in Workflow"
    case InvalidMinimumCpu => "Minimum CPU value in workflow is invalid"
    case InvalidMinimumMemory => "Minimum memory size value in workflow is invalid"
    case InvalidMinimumDisk => "Minimum disk space value in workflow is invalid"
    case CannotConvertCloudInit => "Cannot convert cloud-init data for the " + name + " workflow"
    case InvalidTimeout => "Invalid timeout given in workflow"
  }

  /** The error line a bulk listing logs for a workflow it skips. */
  function LogLine(name: string, e: WorkflowError): (line: string)
    ensures e.InvalidHostName? ==> line == ErrorMessage(name, e)
    ensures !e.InvalidHostName? ==> line == "Invalid workflow: " + ErrorMessage(name, e)
  {
    if e.InvalidHostName? then ErrorMessage(name, e) else "Invalid workflow: " + ErrorMessage(name, e)
  }

  /** What a listing shows of a workflow, and the architectures it is restricted to (none: all). */
  datatype WorkflowInfo = WorkflowInfo(releaseTitle: string, version: string, runsOn: set<string>)

  /**
   * One workflow of the archive, each aspect parsed on its own: the listing
   * information (description, version, runs-on, name), what a launch needs
   * (image, minimums, cloud-init) and the timeout.
   */
  datatype Entry = Entry(
    info: Result<WorkflowInfo, WorkflowError>,
    launch: Result<LaunchSpec, WorkflowError>,
    timeout: Result<nat, WorkflowError>)

  datatype NamedEntry = NamedEntry(name: string, entry: Entry)

  /** The summary the catalog hands out for a workflow: its name as the only alias, title and version. */
  datatype ImageInfo = ImageInfo(aliases: seq<string>, releaseTitle: string, version: string)

  predicate Compatible(info: WorkflowInfo, arch: string) {
    |info.runsOn| == 0 || arch in info.runsOn
  }

  /** The entry parses for listing and may run on this architecture. */
  predicate Listed(e: NamedEntry, arch: string) {
    e.entry.info.Success? && Compatible(e.entry.info.value, arch)
  }

  function Summary(e: NamedEntry): (s: ImageInfo)
    requires e.entry.info.Success?
    ensures s.aliases == [e.name]
  {
    ImageInfo([e.name], e.entry.info.value.releaseTitle, e.entry.info.value.version)
  }

  predicate DistinctNames(entries: seq<NamedEntry>) {
    forall i, j :: 0 <= i < j < |entries| ==> entries[i].name != entries[j].name
  }

  /** The first entry with the given name. */
  function Lookup(entries: seq<NamedEntry>, name: string): (r: Option<Entry>)
    ensures r.None? <==> forall i :: 0 <= i < |entries| ==> entries[i].name != name
    ensures r.Some? ==> exists i :: 0 <= i < |entries| && entries[i] == NamedEntry(name, r.value)
    ensures forall i :: 0 <= i < |entries| && entries[i].name == name && DistinctNames(entries) ==>
      r == Some(entries[i].entry)
  {
    if |entries| == 0 then None
    else if entries[0].name == name then Some(entries[0].entry)
    else
      var r := Lookup(entries[1..], name);
      assert forall i :: 1 <= i < |entries| ==> entries[i] == entries[1..][i - 1];
      assert DistinctNames(entries) ==> DistinctNames(entries[1..]) by {
        if DistinctNames(entries) {
          forall i, j | 0 <= i < j < |entries| - 1 ensures entries[1..][i].name != entries[1..][j].name {
            assert entries[1..][i] == entries[i + 1] && entries[1..][j] == entries[j + 1];
          }
        }
      }
      r
  }

  // ---------------------------------------------------------------------------
  // Catalog state and refresh
  // ---------------------------------------------------------------------------

  /** How an attempt to download and unpack the archive ended. */
  datatype RefreshOutcome =
    | Fetched(entries: seq<NamedEntry>)
    | DownloadFailed(url: string, message: string)
    | ZipFailed(message: string)
    | OtherFailure(message: string)

  /**
   * The catalog: time-to-live of a refresh, the host's architecture tag, the
   * entries of the last successful refresh, and when that refresh happened.
   */
  datatype Catalog = Catalog(ttl: nat, arch: string, entries: seq<NamedEntry>, lastRefresh: Option<nat>)

  /** A refresh is due: never refreshed yet, a zero time-to-live, or the time-to-live has run out. */
  predicate Stale(c: Catalog, now: nat) {
    c.ttl == 0 || c.lastRefresh.None? || now - c.lastRefresh.value >= c.ttl
  }

  /** The time-to-live rule: a zero time-to-live or no refresh yet is always due; otherwise due once the time-to-live has run out. */
  lemma StaleRule(c: Catalog, now: nat)
    ensures c.ttl == 0 ==> Stale(c, now)
    ensures c.lastRefresh.None? ==> Stale(c, now)
    ensures c.ttl > 0 && c.lastRefresh.Some? ==> (Stale(c, now) <==> now >= c.lastRefresh.value + c.ttl)
  {
  }

  /** The catalog after the freshness check, the downloads it made, what it logged, and any failure it lets through. */
  datatype Refresh = Refresh(catalog: Catalog, downloads: nat, logs: seq<string>, fatal: Option<string>)

  /** The error line of a recoverable refresh failure: its own prefix, ending with the failure's message. */
  function RecoverableLog(outcome: RefreshOutcome): (line: string)
    requires outcome.DownloadFailed? || outcome.ZipFailed?
    ensures |line| > |outcome.message| && line[|line| - |outcome.message|..] == outcome.message
  {
    match outcome
    case DownloadFailed(url, message) =>
      "Error fetching workflows: failed to download from '" + url + "': " + message
    case ZipFailed(message) => "Error extracting Workflows zip file: " + message
  }

  /**
   * The check made before every catalog operation. A due refresh downloads
   * once; on success the entries are replaced and the refresh time advances;
   * download and unpacking failures are logged and leave everything as it was;
   * any other failure is let through unchanged.
   */
  function EnsureFresh(c: Catalog, now: nat, outcome: RefreshOutcome): (f: Refresh)
    ensures f.downloads == if Stale(c, now) then 1 else 0
    ensures !Stale(c, now) ==> f == Refresh(c, 0, [], None)
    ensures f.fatal.Some? <==> Stale(c, now) && outcome.OtherFailure?
    ensures f.fatal.Some? ==> f.fatal.value == outcome.message && f.catalog == c && f.logs == []
    ensures f.catalog.ttl == c.ttl && f.catalog.arch == c.arch
    ensures f.catalog != c ==> Stale(c, now) && outcome.Fetched?
    ensures Stale(c, now) && outcome.Fetched? ==>
      f.catalog.entries == outcome.entries && f.catalog.lastRefresh == Some(now) && f.logs == []
    ensures Stale(c, now) && (outcome.DownloadFailed? || outcome.ZipFailed?) ==>
      f.catalog == c && f.logs == [RecoverableLog(outcome)] && f.fatal.None?
  {
    if !Stale(c, now) then Refresh(c, 0, [], None)
    else
      match outcome
      case Fetched(entries) => Refresh(c.(entries := entries, lastRefresh := Some(now)), 1, [], None)
      case DownloadFailed(_, _) => Refresh(c, 1, [RecoverableLog(outcome)], None)
      case ZipFailed(_) => Refresh(c, 1, [RecoverableLog(outcome)], None)
      case OtherFailure(message) => Refresh(c, 1, [], Some(message))
  }

  // ---------------------------------------------------------------------------
  // Answers from the current entries
  // ---------------------------------------------------------------------------

  /** What a caller is told instead of an answer. */
  datatype CatalogError =
    | OutOfRange(name: string)
    | InvalidWorkflow(message: string)
    | IncompatibleWorkflow(name: string)
    | BelowMinimum(violation: MinimumViolation)
    | Propagated(message: string)

  datatype Listing = Listing(infos: seq<ImageInfo>, logs: seq<string>)

  function ListedCount(entries: seq<NamedEntry>, arch: string): nat {
    if |entries| == 0 then 0 else (if Listed(entries[0], arch) then 1 else 0) + ListedCount(entries[1..], arch)
  }

  function InvalidCount(entries: seq<NamedEntry>): nat {
    if |entries| == 0 then 0 else (if entries[0].entry.info.Failure? then 1 else 0) + InvalidCount(entries[1..])
  }

  /**
   * The bulk listing: every entry that parses and is compatible, in archive
   * order, and one logged line per entry that does not parse; incompatible
   * entries are skipped without a line.
   */
  function ListWorkflows(entries: seq<NamedEntry>, arch: string): (r: Listing)
    ensures forall x :: x in r.infos <==>
      exists i :: 0 <= i < |entries| && Listed(entries[i], arch) && x == Summary(entries[i])
    ensures forall i :: 0 <= i < |entries| && entries[i].entry.info.Failure? ==>
      LogLine(entries[i].name, entries[i].entry.info.error) in r.logs
    ensures forall line :: line in r.logs ==>
      exists i :: 0 <= i < |entries| && entries[i].entry.info.Failure? &&
        line == LogLine(entries[i].name, entries[i].entry.info.error)
    ensures |r.infos| == ListedCount(entries, arch) && |r.logs| == InvalidCount(entries)
  {
    if |entries| == 0 then Listing([], [])
    else
      var rest := ListWorkflows(entries[1..], arch);
      assert forall i :: 1 <= i < |entries| ==> entries[i] == entries[1..][i - 1];
      var e := entries[0];
      if e.entry.info.Failure? then
        Listing(rest.infos, [LogLine(e.name, e.entry.info.error)] + rest.logs)
      else if Compatible(e.entry.info.value, arch) then
        Listing([Summary(e)] + rest.infos, rest.logs)
      else
        rest
  }

  /** The summary of one named workflow: unknown, unparsable and incompatible workflows each fail their own way. */
  function InfoOf(c: Catalog, name: string): (r: Result<ImageInfo, CatalogError>)
    ensures Lookup(c.entries, name).None? ==> r == Failure(OutOfRange(name))
    ensures Lookup(c.entries, name).Some? && Lookup(c.entries, name).value.info.Failure? ==>
      r == Failure(InvalidWorkflow(ErrorMessage(name, Lookup(c.entries, name).value.info.error)))
    ensures Lookup(c.entries, name).Some? && Lookup(c.entries, name).value.info.Success?
            && !Compatible(Lookup(c.entries, name).value.info.value, c.arch) ==>
      r == Failure(IncompatibleWorkflow(name))
    ensures r.Success? ==>
      && Lookup(c.entries, name).Some?
      && Listed(NamedEntry(name, Lookup(c.entries, name).value), c.arch)
      && r.value == Summary(NamedEntry(name, Lookup(c.entries, name).value))
    ensures Lookup(c.entries, name).Some? && Listed(NamedEntry(name, Lookup(c.entries, name).value), c.arch) ==>
      r == Success(Summary(NamedEntry(name, Lookup(c.entries, name).value)))
  {
    match Lookup(c.entries, name)
    case None => Failure(OutOfRange(name))
    case Some(e) =>
      match e.info
      case Failure(err) => Failure(InvalidWorkflow(ErrorMessage(name, err)))
      case Success(info) =>
        if !Compatible(info, c.arch) then Failure(IncompatibleWorkflow(name))
        else Success(Summary(NamedEntry(name, e)))
  }

  /**
   * A named workflow applied to a VM description: the same failures as InfoOf,
   * then the workflow's own launch errors, then the resource minimums.
   */
  function FetchOf(c: Catalog, name: string, vm: VmDescription): (r: Result<(ImageQuery, VmDescription), CatalogError>)
    ensures Lookup(c.entries, name).None? ==> r == Failure(OutOfRange(name))
    ensures InfoOf(c, name).Failure? ==> r == Failure(InfoOf(c, name).error)
    ensures InfoOf(c, name).Success? && Lookup(c.entries, name).value.launch.Failure? ==>
      r == Failure(InvalidWorkflow(ErrorMessage(name, Lookup(c.entries, name).value.launch.error)))
    ensures r.Success? ==>
      && InfoOf(c, name).Success? && Lookup(c.entries, name).value.launch.Success?
      && Apply(Lookup(c.entries, name).value.launch.value, vm) == Success(r.value)
    ensures r.Failure? && r.error.BelowMinimum? ==>
      Apply(Lookup(c.entries, name).value.launch.value, vm) == Failure(r.error.violation)
    ensures InfoOf(c, name).Success? && Lookup(c.entries, name).value.launch.Success?
            && Apply(Lookup(c.entries, name).value.launch.value, vm).Success? ==>
      r == Success(Apply(Lookup(c.entries, name).value.launch.value, vm).value)
    ensures InfoOf(c, name).Success? && Lookup(c.entries, name).value.launch.Success?
            && Apply(Lookup(c.entries, name).value.launch.value, vm).Failure? ==>
      r == Failure(BelowMinimum(Apply(Lookup(c.entries, name).value.launch.value, vm).error))
  {
    var _ :- InfoOf(c, name);
    var e := Lookup(c.entries, name).value;
    match e.launch
    case Failure(err) => Failure(InvalidWorkflow(ErrorMessage(name, err)))
    case Success(spec) =>
      match Apply(spec, vm)
      case Failure(v) => Failure(BelowMinimum(v))
      case Success(applied) => Success(applied)
  }

  /** The canonical name of a workflow, or the empty string for one the catalog does not hold. */
  function NameOf(c: Catalog, name: string): (r: string)
    ensures Lookup(c.entries, name).Some? ==> r == name
    ensures Lookup(c.entries, name).None? ==> r == ""
  {
    if Lookup(c.entries, name).Some? then name else ""
  }

  /** A workflow's timeout in seconds: 0 for an unknown workflow, its own error for an invalid timeout. */
  function TimeoutOf(c: Catalog, name: string): (r: Result<nat, CatalogError>)
    ensures Lookup(c.entries, name).None? ==> r == Success(0)
    ensures Lookup(c.entries, name).Some? && Lookup(c.entries, name).value.timeout.Success? ==>
      r == Success(Lookup(c.entries, name).value.timeout.value)
    ensures Lookup(c.entries, name).Some? && Lookup(c.entries, name).value.timeout.Failure? ==>
      r == Failure(InvalidWorkflow(ErrorMessage(name, Lookup(c.entries, name).value.timeout.error)))
  {
    match Lookup(c.entries, name)
    case None => Success(0)
    case Some(e) =>
      match e.timeout
      case Success(t) => Success(t)
      case Failure(err) => Failure(InvalidWorkflow(ErrorMessage(name, err)))
  }

  // ---------------------------------------------------------------------------
  // The public operations: freshness check first, then the answer
  // ---------------------------------------------------------------------------

  /** The catalog after an operation, the downloads it made, what it logged, and its reply. */
  datatype Step<T> = Step(catalog: Catalog, downloads: nat, logs: seq<string>, reply: Result<T, CatalogError>)

  /** Completes an operation: a let-through failure replaces the answer. */
  function Finish<T>(f: Refresh, answer: Result<T, CatalogError>, logs: seq<string>): (s: Step<T>)
    ensures s.catalog == f.catalog && s.downloads == f.downloads
    ensures f.fatal.Some? ==> s.reply == Failure(Propagated(f.fatal.value)) && s.logs == f.logs
    ensures f.fatal.None? ==> s.reply == answer && s.logs == f.logs + logs
  {
    if f.fatal.Some? then Step(f.catalog, f.downloads, f.logs, Failure(Propagated(f.fatal.value)))
    else Step(f.catalog, f.downloads, f.logs + logs, answer)
  }

  /** Construction: an empty catalog that refreshes at once; only a failure outside the recoverable two aborts it. */
  function Construct(ttl: nat, arch: string, now: nat, outcome: RefreshOutcome): (s: Step<()>)
    ensures s.downloads == 1
    ensures s.reply.Failure? <==> outcome.OtherFailure?
    ensures s.reply.Failure? ==> s.reply.error == Propagated(outcome.message)
    ensures s.catalog.ttl == ttl && s.catalog.arch == arch
    ensures outcome.Fetched? ==> s.catalog.entries == outcome.entries && s.catalog.lastRefresh == Some(now)
    ensures !outcome.Fetched? ==> s.catalog.entries == [] && s.catalog.lastRefresh.None?
    // a download or unpacking failure at startup is logged, not raised
    ensures outcome.DownloadFailed? || outcome.ZipFailed? ==> s.logs == [RecoverableLog(outcome)] && s.reply.Success?
    ensures !(outcome.DownloadFailed? || outcome.ZipFailed?) ==> s.logs == []
  {
    Finish(EnsureFresh(Catalog(ttl, arch, [], None), now, outcome), Success(()), [])
  }

  /** The catalog an operation answers from: a due refresh that fetched replaces the entries; anything else keeps the catalog. */
  function CatalogAfter(c: Catalog, now: nat, outcome: RefreshOutcome): Catalog {
    if Stale(c, now) && outcome.Fetched? then c.(entries := outcome.entries, lastRefresh := Some(now)) else c
  }

  /** A due refresh ended in a failure outside the recoverable two: the operation raises it. */
  predicate Raised(c: Catalog, now: nat, outcome: RefreshOutcome) {
    Stale(c, now) && outcome.OtherFailure?
  }

  /** What the freshness check logs: the line of a recoverable failure, or nothing. */
  function RefreshLogs(c: Catalog, now: nat, outcome: RefreshOutcome): seq<string> {
    if Stale(c, now) && (outcome.DownloadFailed? || outcome.ZipFailed?) then [RecoverableLog(outcome)] else []
  }

  /** What every public operation owes to the freshness check made before it answers. */
  predicate CheckedFirst<T>(c: Catalog, now: nat, outcome: RefreshOutcome, s: Step<T>) {
    && s.catalog == CatalogAfter(c, now, outcome)
    && s.downloads == (if Stale(c, now) then 1 else 0)
    && (Raised(c, now, outcome) ==> s.reply == Failure(Propagated(outcome.message)) && s.logs == [])
  }

  function AllWorkflows(c: Catalog, now: nat, outcome: RefreshOutcome): (s: Step<seq<ImageInfo>>)
    ensures CheckedFirst(c, now, outcome, s)
    ensures !Raised(c, now, outcome) ==>
      var listing := ListWorkflows(CatalogAfter(c, now, outcome).entries, c.arch);
      s.reply == Success(listing.infos) && s.logs == RefreshLogs(c, now, outcome) + listing.logs
  {
    var f := EnsureFresh(c, now, outcome);
    var listing := ListWorkflows(f.catalog.entries, c.arch);
    Finish(f, Success(listing.infos), listing.logs)
  }

  function InfoFor(c: Catalog, name: string, now: nat, outcome: RefreshOutcome): (s: Step<ImageInfo>)
    ensures CheckedFirst(c, now, outcome, s)
    ensures !Raised(c, now, outcome) ==>
      s.reply == InfoOf(CatalogAfter(c, now, outcome), name) && s.logs == RefreshLogs(c, now, outcome)
  {
    var f := EnsureFresh(c, now, outcome);
    Finish(f, InfoOf(f.catalog, name), [])
  }

  function FetchWorkflowFor(c: Catalog, name: string, vm: VmDescription, now: nat, outcome: RefreshOutcome)
    : (s: Step<(ImageQuery, VmDescription)>)
    ensures CheckedFirst(c, now, outcome, s)
    ensures !Raised(c, now, outcome) ==>
      s.reply == FetchOf(CatalogAfter(c, now, outcome), name, vm) && s.logs == RefreshLogs(c, now, outcome)
  {
    var f := EnsureFresh(c, now, outcome);
    Finish(f, FetchOf(f.catalog, name, vm), [])
  }

  function NameFromWorkflow(c: Catalog, name: string, now: nat, outcome: RefreshOutcome): (s: Step<string>)
    ensures CheckedFirst(c, now, outcome, s)
    ensures !Raised(c, now, outcome) ==>
      s.reply == Success(NameOf(CatalogAfter(c, now, outcome), name)) && s.logs == RefreshLogs(c, now, outcome)
  {
    var f := EnsureFresh(c, now, outcome);
    Finish(f, Success(NameOf(f.catalog, name)), [])
  }

  function WorkflowTimeout(c: Catalog, name: string, now: nat, outcome: RefreshOutcome): (s: Step<nat>)
    ensures CheckedFirst(c, now, outcome, s)
    ensures !Raised(c, now, outcome) ==>
      s.reply == TimeoutOf(CatalogAfter(c, now, outcome), name) && s.logs == RefreshLogs(c, now, outcome)
  {
    var f := EnsureFresh(c, now, outcome);
    Finish(f, TimeoutOf(f.catalog, name), [])
  }
}
